=== FILE: README.md ===
# mcp-docker-server in Dafny: SSH host bootstrap and tool handlers

This project models two parts of mcp-docker-server, a server that exposes Docker engine
operations as tools.

1. **Connection bootstrap** (`src/mcp_docker_server/__init__.py`). This has three steps:
   - `resolve_ssh_config` rewrites `DOCKER_HOST=ssh://alias/...` into the user, host and port
     that `~/.ssh/config` gives for the alias;
   - `_ensure_ssh_host_key_trusted` validates the host and port, then appends
     `ssh-keyscan` output to `known_hosts` when the `[host]:port` marker is missing;
   - `create_docker_client` writes `DOCKER_HOST` back only when resolution changed it, and
     runs the host-key step only for an `ssh://` host.

   The parts of Python's `urllib.parse` the bootstrap relies on follow CPython 3.12: `urlparse`,
   `urlunparse`, `.hostname` and `.port`.
2. **Tool handlers** (`_handle_container_tools`, `_handle_image_tools`,
   `_handle_network_tools`, `_handle_volume_tools`), as their unit tests fix them:
   - the summary records of the list tools: 12-character ids, `sha256:` stripped from image
     ids, the leading `/` dropped from a container's first name;
   - log text split on newlines;
   - the engine calls each tool makes and their arguments;
   - a failed lookup propagates;
   - an unknown tool name gives `None` and makes no call.

   The engine is an abstract responder, and the effect of a handler is its trace of calls.

Modules, one per file:

| file | module | content |
|---|---|---|
| `base.dfy` | `Base` | `Option`, `Result` |
| `text.dfy` | `Text` | Python string operations: partition, `split`/`join`, `int()`, `isspace`, lower-casing |
| `url.dfy` | `UrlParse` | `urlparse`, `urlunparse`, `hostname`, `port` |
| `ssh_config.dfy` | `SshConfig` | the SSH config file as missing, unreadable, or a map from alias to entry |
| `resolve.dfy` | `Resolve` | `resolve_ssh_config` |
| `host_key.dfy` | `HostKey` | `_ensure_ssh_host_key_trusted` |
| `client.dfy` | `Client` | `create_docker_client`, up to building the client |
| `engine.dfy` | `DockerEngine` | JSON values, raw listing records, engine calls, the engine's answers |
| `summaries.dfy` | `Summaries` | id shortening, container names, summary records, log lines |
| `handlers.dfy` | `Handlers` | the four handler groups, one function per tool |
| `handler_cases.dfy` | `HandlerCases` | the unit tests' scenarios, stated as lemmas |

Parameters replace I/O:
- the SSH config file is a `ConfigFile`;
- the outcome of `ssh-keyscan` is a `ScanResult`;
- the content of `known_hosts` is a string;
- the environment is a map;
- the engine is an `Engine` value.

## Model

| member | source | states |
|---|---|---|
| Resolve.ResolveSshConfig | src/mcp_docker_server/__init__.py:14-72 | The input comes back unchanged when it is empty or not `ssh://`, when its netloc holds `@`, when the config file is missing or fails to parse, or when the URL has no hostname. An error occurs exactly when the modelled `urlparse` (bracket-balance check only) raises; that call is outside the `try`. Any change implies the URL was rewritable |
| Resolve.ResolvedNetloc | src/mcp_docker_server/__init__.py:44-54 | The netloc starts with `user@` when the entry has a non-empty user, otherwise with the host. It ends with the host when the port is absent or `"22"`, and with `:port` for any other port |
| Resolve.ResolvedNetlocParts | src/mcp_docker_server/__init__.py:44-54 | For an entry with a non-empty hostname (or alias), whose hostname and user hold none of `:@[]/?#`, tab, CR or LF and whose port holds none of `@[]/?#`, tab, CR or LF: the new netloc holds `@` exactly when the entry has a non-empty user. Its host is the config hostname, or the alias. Its port is the config port, or none when that port is `"22"` or absent |
| Resolve.ResolvedNetlocClean | src/mcp_docker_server/__init__.py:48-54 | For an entry with a non-empty hostname (or alias), whose hostname and user hold none of `:@[]/?#`, tab, CR or LF and whose port holds none of `@[]/?#`, tab, CR or LF, the built netloc is a clean netloc (non-empty, no `/?#`, tab, CR or LF, and a `[` exactly when a `]`) and holds no bracket at all |
| Resolve.ResolveKeepsOtherFields | src/mcp_docker_server/__init__.py:56-66 | When the rewritten netloc is a clean netloc (non-empty, no `/?#`, tab, CR or LF, and a `[` exactly when a `]`), parsing the result gives the input's record with only the netloc replaced: scheme, path, params, query and fragment are kept |
| Resolve.ResolvedHostAndPort | src/mcp_docker_server/__init__.py:44-54 | For an entry with a non-empty hostname (or alias), whose hostname and user hold none of `:@[]/?#`, tab, CR or LF and whose port holds none of `@[]/?#`, tab, CR or LF: the result's host is the config hostname or alias. Its port is the config port, or none for `"22"`. A port written in the input is never carried over |
| Resolve.ResolvedIsSsh | src/mcp_docker_server/__init__.py:57-68 | A URL rewritten to a clean netloc still starts with `ssh://` |
| Resolve.ResolveWithUserIsIdempotent | src/mcp_docker_server/__init__.py:22-24 | When the entry has a user and the rewritten netloc is clean, resolving the result again returns it unchanged, because of the `@` check |
| UrlParse.Parse | src/mcp_docker_server/__init__.py:20 | A parsed netloc has balanced square brackets and no `/?#` or tab/CR/LF. The query has no `#`, and neither query nor fragment has tab/CR/LF |
| UrlParse.ParseSshFailsOnBrackets | src/mcp_docker_server/__init__.py:20 | For an `ssh://` text, the modelled `urlparse` (bracket-balance check only) raises exactly when the netloc it cuts holds one kind of square bracket, and the error names that netloc |
| UrlParse.SplitHostInfo | src/mcp_docker_server/__init__.py:37 | The host and port texts never hold `@`. For a host without `[`, the host has no colon, and the host, a colon and the port text put back together give the text after the last `@` |
| UrlParse.Unparse | src/mcp_docker_server/__init__.py:57-66 | `urlunparse` writes the scheme and a colon first, then `//` and the netloc when there is one |
| UrlParse.ParseUnparse | src/mcp_docker_server/__init__.py:57-66 | Round trip: parsing what `urlunparse` writes for a well-formed `ssh` record gives the record back |
| UrlParse.ParseSshShape | src/mcp_docker_server/__init__.py:20-24 | For an `ssh://` URL that parses, replacing its netloc with a clean non-empty one gives a well-formed record. The parsed netloc itself may be empty, as for `ssh://` or `ssh:///x` |
| UrlParse.Hostname | src/mcp_docker_server/__init__.py:37-39 | `hostname` is `None` exactly when the host text is empty. Otherwise it has the host's length, and without a `%zone` it is the host lower-cased |
| UrlParse.Port | src/mcp_docker_server/__init__.py:81 | `port` is absent exactly when no port text follows the host. A present port is the decimal value of the port text, at most 65535. `ValueError` is raised exactly when the port text is not all ASCII digits or exceeds 65535 |
| Text.ParseInt | src/mcp_docker_server/__init__.py:94 | `int()` of a decimal string is its value, of `+` and digits the digits' value, and of `-` and digits its negation. Any accepted string is decimal after an optional sign |
| HostKey.Candidate | src/mcp_docker_server/__init__.py:77-94 | A host to scan exists only when the URL parses and names a host, and the config is not unreadable. A port that raises `ValueError` gives no host. When the URL parses with a valid port and a host, the candidate is the config step applied to that host and `parsed.port or 22` |
| HostKey.ConfigTarget | src/mcp_docker_server/__init__.py:86-94 | A missing config keeps the URL host and port. An unreadable one gives no target. A config entry's `hostname` replaces the host, and its `port` replaces the port when `int()` reads it and gives no target when it does not |
| HostKey.UrlPort | src/mcp_docker_server/__init__.py:81 | `parsed.port or 22` is 22 for an absent port and for port 0, and the URL port itself otherwise |
| HostKey.CandidatePortDefault | src/mcp_docker_server/__init__.py:81-94 | With no URL port (or port 0) and no config port, the port is 22 |
| HostKey.CandidateFromConfig | src/mcp_docker_server/__init__.py:89-94 | A config `port` that `int()` reads overrides the URL's port, and the config `hostname` overrides its host |
| HostKey.HostnamePatternMatches | src/mcp_docker_server/__init__.py:99 | An accepted host is non-empty, starts with a class character, and ends with a class character or one `\n` |
| HostKey.HostnamePatternMeaning | src/mcp_docker_server/__init__.py:99-100 | `re.match(r"^[a-zA-Z0-9.-]+$")` accepts exactly the non-empty strings of class characters, optionally followed by one `\n` |
| HostKey.TrailingNewlineAccepted | src/mcp_docker_server/__init__.py:99 | `"db.local\n"` passes the hostname check |
| HostKey.HostnamePatternRejects | src/mcp_docker_server/__init__.py:99-100 | `""`, `"db\n\n"` and `"db;rm"` fail the hostname check |
| HostKey.ScanTarget | src/mcp_docker_server/__init__.py:96-108 | `ssh-keyscan` runs exactly when the candidate host passes the pattern and its port is in 1..65535 |
| HostKey.Marker | src/mcp_docker_server/__init__.py:127 | The marker is `[`, the host and `]:`, followed by the port written as `str(port)` does: decimal digits that read back as the port, with no leading zero unless the port is 0 |
| HostKey.UsefulScan | src/mcp_docker_server/__init__.py:117 | A useful scan exited and wrote non-empty output |
| HostKey.AppendHostKey | src/mcp_docker_server/__init__.py:117-129 | `known_hosts` only grows. It changes exactly when the scan exited 0 with non-blank output and `[host]:port` is absent, and then becomes the old content plus the output |
| HostKey.EnsureHostKeyTrusted | src/mcp_docker_server/__init__.py:75-138 | Without a scan target, `known_hosts` is unchanged. It changes exactly when there is a target, the scan is useful and the marker is absent, and then the scan output is appended |
| HostKey.AppendIdempotentWhenMarkerWritten | src/mcp_docker_server/__init__.py:126-129 | When the scan output contains the marker, a second identical run appends nothing |
| HostKey.BracketFreeScanAppendsAgain | src/mcp_docker_server/__init__.py:117-129 | For any target, when neither `known_hosts` nor a useful scan output holds `[`, the marker is never found: the first run appends the output and a second run appends it again |
| Client.DockerHost | src/mcp_docker_server/__init__.py:143 | The host read is the value of `DOCKER_HOST`, or `""` when it is unset |
| Client.UpdateEnv | src/mcp_docker_server/__init__.py:146-148 | The environment changes only in `DOCKER_HOST`, and only when the resolved host differs from the original. Afterwards `DOCKER_HOST` holds the resolved host |
| Client.CreateDockerClient | src/mcp_docker_server/__init__.py:141-157 | Startup fails exactly when resolution raises in the modelled `urlparse` (bracket-balance check only). The environment is updated as `UpdateEnv` states. For a non-`ssh://` host, `known_hosts` is unchanged and nothing is scanned. `known_hosts` only grows |
| Client.NonSshStartupChangesNothing | src/mcp_docker_server/__init__.py:143-153 | With a `DOCKER_HOST` that is not `ssh://`, startup leaves the environment and `known_hosts` as they were and scans nothing |
| Client.StartupScansResolvedHost | src/mcp_docker_server/__init__.py:150-153 | For an `ssh://` result, the host-key step runs on the resolved host, not the original |
| Client.UnbracketedIpv6HostIsNotScanned | src/mcp_docker_server/__init__.py:43-54 | A config `HostName 2001:db8::1` (no user, no port) is written without brackets: the rewritten URL parses with host `2001` and port text `db8::1`, its `port` raises, and the host-key step has no candidate and scans nothing |
| Summaries.ShortId | src/tests/test_handlers.py:49 | The short id is a prefix of the id, of length 12, or the whole id when shorter |
| Summaries.ShortIdUnique | src/tests/test_handlers.py:49 | Length and prefix determine the short id |
| Summaries.ShortIdIgnoresTail | src/tests/test_handlers.py:308 | Only the first 12 characters of an id matter |
| Summaries.ImageShortId | src/tests/test_handlers.py:193-208 | An image short id is at most 12 characters. It follows `sha256:` in the id when that prefix is there, otherwise it is a prefix of the id. A long enough id gives exactly 12 |
| Summaries.ImageShortIdOfDigest | src/tests/test_handlers.py:208 | `sha256:` followed by a digest gives the digest's short id |
| Summaries.ContainerName | src/tests/test_handlers.py:34-50 | The name is the first name with one leading `/` removed, or the first name itself when it has none |
| Summaries.SummarizeContainers | src/tests/test_handlers.py:44-62 | One summary per raw record, in order. Each id is the raw id cut to 12 characters, each name is the raw record's first name without its `/`, and image, command, created, status and ports are copied |
| Summaries.SummarizeImages | src/tests/test_handlers.py:203-210 | One summary per raw record, in order, with the image short id; repo tags, created, size, virtual size and labels are copied |
| Summaries.SummarizeNetworks | src/tests/test_handlers.py:303-310 | One summary per raw record, in order. Each id is the raw id cut to 12 characters; name, driver, scope, created, labels, options and IPAM are copied |
| Summaries.SummarizeVolumes | src/tests/test_handlers.py:373-380 | One summary per raw volume, in order, copying every field |
| Summaries.LogLines | src/tests/test_handlers.py:157-165 | Joining the lines with `\n` gives the text back, and no line holds `\n`. There is one more line than there are newlines, and a text ending in `\n` ends with an empty line |
| Summaries.LogLinesUnique | src/tests/test_handlers.py:165 | The lines are the only newline-free pieces whose join is the text |
| Handlers.Fetch | src/tests/test_handlers.py:169-174 | The lookup succeeds exactly when the id is present and known. A missing key raises before any call. An unknown id makes one `get` call and raises `NotFound` |
| Handlers.ListContainersTool | src/tests/test_handlers.py:44-63 | One raw listing call with `all` forwarded (false when absent). The result holds one summary per raw record, element by element |
| Handlers.RecreateContainerTool | src/tests/test_handlers.py:101-112 | After a successful lookup there are exactly four calls: get, stop, remove and run, once each. A failed lookup stops at the get |
| Handlers.TransitionTool | src/tests/test_handlers.py:114-136 | Start and stop make the get call, then the one transition on the fetched container |
| Handlers.RemoveContainerTool | src/tests/test_handlers.py:138-150 | Get, then one remove with the caller's `force` passed unchanged (false when absent). A failed lookup raises after the get |
| Handlers.FetchContainerLogsTool | src/tests/test_handlers.py:152-167 | Get, then `logs(tail=...)` with `tail` forwarded (100 when absent). The result is lines that join back to the engine's text |
| Handlers.ContainerLookupTool | src/tests/test_handlers.py:95-167 | Each tool that fetches `container_id` propagates a failed lookup. After a successful one, recreate makes get, stop, remove and run once each; start makes get then start; stop makes get then stop; remove makes get then remove with `force`; logs makes get then `logs(tail=...)` and returns lines that hold no `\n` and join back to the engine's text, which fixes the split |
| Handlers.HandleContainerTools | src/tests/test_handlers.py:176-179 | The result is `None` exactly for a name outside the container tools, and then no call is made. `list_containers` runs the listing tool: the one listing call with `all`, and one summary per raw record, element by element. Create and run make one call each and return a result. Each lookup tool name runs that tool |
| Handlers.ListImagesTool | src/tests/test_handlers.py:203-211 | One raw listing call with `all` forwarded. One summary per raw record, with the image short id, repo tags and size |
| Handlers.ImageActionTool | src/tests/test_handlers.py:213-272 | Pull and push forward the repository and `tag`, and push returns both. Build forwards `path` and `tag` and returns the image and build logs unchanged. Remove forwards the image and `force`. A missing required key raises before any call |
| Handlers.HandleImageTools | src/tests/test_handlers.py:274-277 | `None` exactly for an unknown name, with no calls. A known tool makes at most one call. `list_images` runs the listing tool: the listing call with `all`, and one summary per raw record with the image short id, repo tags and size. Pull and push call pull and push with the repository and `tag`, and push returns both. Build calls build with `path` and `tag` and returns the built image and logs. Remove calls remove with the image and `force`. A missing required key raises before any call |
| Handlers.ListNetworksTool | src/tests/test_handlers.py:303-311 | One raw listing call. The result holds one summary per raw record, element by element |
| Handlers.CreateNetworkTool | src/tests/test_handlers.py:313-327 | One create call with the name, `driver` (default `bridge`) and `internal` (default false) |
| Handlers.RemoveNetworkTool | src/tests/test_handlers.py:329-341 | Get, then one remove of that network. A failed lookup raises after the get |
| Handlers.HandleNetworkTools | src/tests/test_handlers.py:343-346 | `None` exactly for an unknown name, with no calls. `list_networks` runs the listing tool: the one listing call, and one summary per raw record, element by element. `create_network` raises without `name`, and otherwise makes one create call with the name, `driver` (default `bridge`) and `internal` (default false). `remove_network` propagates a failed lookup, and otherwise makes get then remove |
| Handlers.ListVolumesTool | src/tests/test_handlers.py:373-381 | One raw listing call. One summary per volume, with its name, driver and scope |
| Handlers.CreateVolumeTool | src/tests/test_handlers.py:383-397 | One create call with the name and `driver` (default `local`) |
| Handlers.RemoveVolumeTool | src/tests/test_handlers.py:399-411 | Get, then one remove with `force` passed unchanged (false when absent) |
| Handlers.HandleVolumeTools | src/tests/test_handlers.py:413-416 | `None` exactly for an unknown name, with no calls. `list_volumes` runs the listing tool: the one listing call, and one summary per volume with its name, driver and scope. `create_volume` raises without `name`, and otherwise makes one create call with the name and `driver` (default `local`). `remove_volume` propagates a failed lookup, and otherwise makes get then remove with `force` |
| HandlerCases.ListContainersCase | src/tests/test_handlers.py:30-52 | `test_container_id` gives id `test_contain`, `/test_container` gives `test_container`, and the listing is called with `all=True` |
| HandlerCases.ListContainersEmptyCase | src/tests/test_handlers.py:54-63 | An empty listing gives `[]` after one listing call |
| HandlerCases.ListImagesCase | src/tests/test_handlers.py:186-211 | `sha256:test_image_id` gives `test_image_i`, and repo tags and size are copied |
| HandlerCases.ListNetworksCase | src/tests/test_handlers.py:284-311 | `test_network_id123` gives `test_network`, and name and driver are copied |
| HandlerCases.TestLogLines | src/tests/test_handlers.py:157-165 | `"log line 1\nlog line 2\n"` splits into `["log line 1", "log line 2", ""]` |
| HandlerCases.LogsCase | src/tests/test_handlers.py:152-167 | Fetching logs calls get and `logs(tail=100)`, and returns the three lines |
| HandlerCases.LogsWithoutFinalNewline | src/tests/test_handlers.py:157-165 | The log split on a text without a final newline: `"a\nb"` gives `["a", "b"]`, with no empty last line |
| HandlerCases.RecreateCase | src/tests/test_handlers.py:101-112 | Recreating `test_id` returns a result and calls get, stop, remove and run once each |
| HandlerCases.StartStopCase | src/tests/test_handlers.py:114-136 | Starting `test_id` calls get then start; stopping it calls get then stop; both return a result |
| HandlerCases.PullCase | src/tests/test_handlers.py:213-225 | Pulling calls pull once with `nginx` and `tag="latest"` and returns a result |
| HandlerCases.NetworkCreateRemoveCase | src/tests/test_handlers.py:313-341 | Creating `test_network` calls create with `driver="bridge"` and `internal=False`; removing `test_network_id` calls get then remove |
| HandlerCases.VolumeListCreateCase | src/tests/test_handlers.py:357-397 | The listed volume keeps name `test_volume`, driver and scope `local`; creating `test_volume` calls create with `driver="local"` |
| HandlerCases.ContainerNotFoundCase | src/tests/test_handlers.py:169-174 | Starting an unknown container raises `NotFound` after the single get |
| HandlerCases.RemoveForwardsForceCase | src/tests/test_handlers.py:138-150 | `force=False` reaches the container, image and volume remove calls |
| HandlerCases.BuildCase | src/tests/test_handlers.py:239-259 | Build forwards `path="/tmp"` and `tag="test:latest"` and returns the build logs |
| HandlerCases.PushCase | src/tests/test_handlers.py:227-237 | Push forwards `nginx` and `tag="latest"` and echoes both in the status record |
| HandlerCases.UnknownToolCase | src/tests/test_handlers.py:176-179 | `unknown_tool` gives `None` and no call in all four groups |

## Left out

- Running `ssh-keyscan`, reading `~/.ssh/config`, and reading, creating or writing `~/.ssh/known_hosts` and its directory are I/O. Their outcomes are parameters: `ConfigFile`, `ScanResult`, and the old file content. The timeout and `SubprocessError` paths are the `ScanRaised` outcome.
- paramiko's `SSHConfig` parsing, its `Host` pattern matching and its token expansion are not part of this model. A parsed config is a map from alias to an entry of optional `hostname`, `user` and `port`. A lookup of an unknown alias gives no options.
- `docker.from_env()`, `main`, `asyncio`/`run_stdio` and `ServerSettings` are not modelled: they build network clients and the protocol server.
- UrlParse.Parse: the `_checknetloc` check is not modelled. It NFKC-normalises non-ASCII netlocs and can raise `ValueError`. The bracketed-host validation of `_check_bracketed_netloc` is not modelled either. Only the bracket-balance `ValueError` is kept.
- ParseSshFailsOnBrackets: states the error of the modelled parse only. CPython 3.12 also raises `ValueError` for a balanced but invalid bracketed host, such as `ssh://[myalias]/`, and from `_checknetloc`; the model parses such text, so Resolve.ResolveSshConfig and Client.CreateDockerClient return Ok where the program would raise.
- UrlParse.Hostname: lower-cases ASCII letters only. Python's `str.lower()` also lower-cases other scripts. For a host with a `%zone` suffix, the contract states the length but not the value.
- Text.ParseInt: accepts an optional sign followed by ASCII digits and nothing else. `int()` also accepts surrounding whitespace, `_` separators and non-ASCII digits; such config ports are treated as a failed conversion.
- HostKey.Marker: written with `NatToString` for non-negative ports only. A negative config port never reaches the marker, because the range guard stops it first.
- The handler bodies in `mcp_docker_server/server.py` are not part of this model. The handlers follow what the unit tests assert. Since the handler bodies are not shown, everything beyond that is an assumption of this model:
  - a missing required argument raises `MissingArgument` before any engine call;
  - optional arguments default as follows: `all` false, `force` false, `tail` 100, `tag` null, network `driver` `"bridge"`, `internal` false, volume `driver` `"local"`.
- Handlers.RecreateContainerTool: states call counts only, not their order, because the tests check only counts. The model and its contract pass no keyword to the inner remove; the tests do not check it.
- Create and run: the engine calls carry no arguments in the model. The tests only check that each is called once, and the argument mapping the handler builds is not known here.
- Results whose shape the tests leave open are one `Acknowledged` value: create, run, recreate, start, stop, container remove, pull, and network and volume create/remove. Only "not `None`" is modelled for them.
- Summaries.ContainerName: an empty `Names` list is assumed to give `""`. Only one leading `/` is assumed to be removed, where `lstrip("/")` would remove all of them; the tests cannot tell the two apart.
- Summaries.ImageShortId: strips only the `sha256:` prefix; another algorithm prefix would be kept.
- Log bytes are modelled as already-decoded text. UTF-8 decoding is not modelled, and neither is how the engine trims output to `tail` lines.
- The `Volumes` wrapper of the raw volume listing is unwrapped by construction. A `null` list is not modelled.
- The engine's own state changes (containers created, stopped or removed) are not modelled. A handler's effect is its trace of calls.
- The `[host]:port` marker never matches what `ssh-keyscan` writes for port 22, which is the bare host name. So for the default port, while `known_hosts` holds no `[`, every startup appends the keys again. HostKey.BracketFreeScanAppendsAgain states this consequence of the code as written, under that condition; it is not treated as a defect of the model.
- ResolvedNetlocParts: holds only for an entry whose hostname and user hold none of `:@[]/?#`, tab, CR or LF. A bare IPv6 `HostName` such as `2001:db8::1` is written without brackets and reads back as host `2001` with port text `db8::1`, so its `port` raises and no host key is scanned; Client.UnbracketedIpv6HostIsNotScanned states this.
- ResolvedHostAndPort: holds only under the same condition on the entry as ResolvedNetlocParts; for the bare IPv6 `HostName` above the host read back is `2001`, not the configured address.
- ResolveKeepsOtherFields, ResolvedIsSsh, ResolveWithUserIsIdempotent: hold when the rewritten netloc is clean. A config value holding `/`, `?` or `#` moves `urlparse`'s cuts, so the rewritten URL no longer reads back with the same netloc, path, query or fragment; one holding a single bracket makes it fail to parse.

=== FILE: base.dfy ===
/** Failure-carrying values shared by every module of the model. */
module Base {

  /** An optional value: Python's `None` versus a present value. */
  datatype Option<+T> = None | Some(value: T) {

    /** The present value, or `default` when there is none (Python's `d.get(k, default)`). */
    function GetOr(default: T): T {
      match this
      case Some(v) => v
      case None => default
    }
  }

  /** The outcome of a computation that may raise: a value, or the exception it raised. */
  datatype Result<+T, +E> = Ok(value: T) | Err(error: E)
}

=== FILE: client.dfy ===
/**
 * `create_docker_client`: resolves `DOCKER_HOST`, writes it back to the environment only when
 * resolution changed it, and runs the host-key step only for an `ssh://` host. Building the
 * Docker client from the environment afterwards is not part of this model.
 */
module Client {

  import opened Base
  import opened Text
  import opened UrlParse
  import opened SshConfig
  import opened Resolve
  import opened HostKey

  /** The environment variable that names the Docker engine. */
  const DockerHostVar := "DOCKER_HOST"

  /** What the startup leaves behind: the environment, `known_hosts`, and the host it scanned, if any. */
  datatype Startup = Startup(env: map<string, string>, knownHosts: string, scanned: Option<Target>)

  /** `os.environ.get("DOCKER_HOST", "")` */
  function DockerHost(env: map<string, string>): (h: string)
    ensures DockerHostVar in env ==> h == env[DockerHostVar]
    ensures DockerHostVar !in env ==> h == ""
  {
    if DockerHostVar in env then env[DockerHostVar] else ""
  }

  /** The environment with `DOCKER_HOST` set to `resolved` when that differs from what was read, and otherwise untouched. */
  function UpdateEnv(env: map<string, string>, resolved: string): (e: map<string, string>)
    ensures forall k :: k != DockerHostVar ==> (k in e <==> k in env)
    ensures forall k :: k != DockerHostVar && k in env ==> e[k] == env[k]
    ensures e == env <==> resolved == DockerHost(env)
    ensures DockerHost(e) == resolved
  {
    if resolved != DockerHost(env) then
      var e := env[DockerHostVar := resolved];
      assert DockerHost(e) == resolved;
      e
    else env
  }

  /**
   * `create_docker_client()` up to `docker.from_env()`. The `ValueError` of an unparsable
   * `ssh://` host escapes from `resolve_ssh_config` and aborts the startup.
   */
  function CreateDockerClient(env: map<string, string>, config: ConfigFile, scan: ScanResult, known: string)
    : (r: Result<Startup, UrlError>)
    ensures r.Err? <==> ResolveSshConfig(DockerHost(env), config).Err?
    ensures r.Ok? ==> r.value.env == UpdateEnv(env, ResolveSshConfig(DockerHost(env), config).value)
    ensures r.Ok? && !StartsWith(ResolveSshConfig(DockerHost(env), config).value, "ssh://")
            ==> r.value.knownHosts == known && r.value.scanned.None?
    ensures r.Ok? ==> StartsWith(r.value.knownHosts, known)
  {
    var resolved := ResolveSshConfig(DockerHost(env), config);
    if resolved.Err? then Err(resolved.error)
    else
      var env' := UpdateEnv(env, resolved.value);
      if resolved.value != "" && StartsWith(resolved.value, "ssh://") then
        Ok(Startup(env', EnsureHostKeyTrusted(resolved.value, config, scan, known), ScanTarget(resolved.value, config)))
      else
        Ok(Startup(env', known, None))
  }

  /** Without `DOCKER_HOST`, or with a host that is not `ssh://`, the startup changes nothing. */
  lemma {:induction false} NonSshStartupChangesNothing(env: map<string, string>, config: ConfigFile, scan: ScanResult, known: string)
    requires !StartsWith(DockerHost(env), "ssh://")
    ensures CreateDockerClient(env, config, scan, known) == Ok(Startup(env, known, None))
  {
  }

  /** For an `ssh://` host the host-key step sees the resolved host, not the one in the environment. */
  lemma {:induction false} StartupScansResolvedHost(env: map<string, string>, config: ConfigFile, scan: ScanResult, known: string)
    requires ResolveSshConfig(DockerHost(env), config).Ok?
    requires StartsWith(ResolveSshConfig(DockerHost(env), config).value, "ssh://")
    ensures var resolved := ResolveSshConfig(DockerHost(env), config).value;
            var r := CreateDockerClient(env, config, scan, known);
            && r.Ok?
            && r.value.scanned == ScanTarget(resolved, config)
            && r.value.knownHosts == EnsureHostKeyTrusted(resolved, config, scan, known)
  {
  }

  /**
   * A config `HostName` that is a bare IPv6 address is written into the netloc without
   * brackets, so the rewritten URL reads back with the host cut at the first `:` and the rest
   * taken as a port that is not a number: the host-key step finds no target and scans nothing.
   */
  lemma {:induction false} UnbracketedIpv6HostIsNotScanned(dockerHost: string, config: ConfigFile)
    requires Rewritable(dockerHost, config)
    requires EntryOf(dockerHost, config) == HostEntry(Some("2001:db8::1"), None, None)
    ensures var r := ResolveSshConfig(dockerHost, config);
            && r.Ok? && Parse(r.value).Ok?
            && SplitHostInfo(Parse(r.value).value.netloc) == HostInfo("2001", "db8::1")
            && Port(Parse(r.value).value).Err?
            && Candidate(r.value, config).None?
            && ScanTarget(r.value, config).None?
  {
    var n := ResolvedNetloc(EntryOf(dockerHost, config), AliasOf(dockerHost, config));
    assert n == "2001:db8::1";
    Ipv6TextIsClean();
    ResolveKeepsOtherFields(dockerHost, config);
    Ipv6TextSplitsAtFirstColon(Parse(dockerHost).value.(netloc := n));
  }

  /** The address `2001:db8::1` is a clean netloc. */
  lemma {:induction false} Ipv6TextIsClean()
    ensures CleanNetloc("2001:db8::1")
  {
    var n := "2001:db8::1";
    assert forall i :: 0 <= i < |n| ==> n[i] in "2001:db8::1";
  }

  /** Read as a netloc, `2001:db8::1` is host `2001` with the port text `db8::1`, which is no number. */
  lemma {:induction false} Ipv6TextSplitsAtFirstColon(u: Url)
    requires u.netloc == "2001:db8::1"
    ensures SplitHostInfo(u.netloc) == HostInfo("2001", "db8::1")
    ensures Port(u).Err?
  {
    var split := HostEntry(Some("2001"), None, Some("db8::1"));
    Ipv6TextAsHostAndPort();
    ResolvedNetlocParts(split, "");
    assert !IsAsciiDigit("db8::1"[0]);
  }

  /** `2001:db8::1` is what the netloc would be for host `2001` and port `db8::1`, both plain. */
  lemma {:induction false} Ipv6TextAsHostAndPort()
    ensures var split := HostEntry(Some("2001"), None, Some("db8::1"));
            PlainEntry(split, "") && ResolvedNetloc(split, "") == "2001:db8::1"
  {
    assert Avoids("2001", HostStops) by {
      assert forall i :: 0 <= i < |"2001"| ==> "2001"[i] in "012";
    }
    assert Avoids("db8::1", PortStops) by {
      assert forall i :: 0 <= i < |"db8::1"| ==> "db8::1"[i] in "db8:1";
    }
  }
}

=== FILE: engine.dfy ===
/**
 * The Docker engine as the tool handlers see it: the JSON-like values that cross the
 * boundary, the raw records the low-level listing endpoints return, the calls a handler can
 * make, and what the engine answers to the calls whose answers matter to the handlers.
 * The engine's own behaviour (scheduling, storage, state transitions) is not modelled: a
 * handler's effect is the trace of calls it makes.
 */
module DockerEngine {

  import opened Base

  /** A JSON-like value: what tool arguments and untouched record fields hold. */
  datatype Json =
    | JNull
    | JBool(b: bool)
    | JInt(i: int)
    | JStr(s: string)
    | JList(items: seq<Json>)
    | JObj(fields: map<string, Json>)

  /** One entry of `APIClient.containers()`: `Id`, `Names`, `Image`, `Command`, `Created`, `Status`, `Ports`. */
  datatype RawContainer = RawContainer(
    id: string,
    names: seq<string>,
    image: string,
    command: Json,
    created: Json,
    status: string,
    ports: Json)

  /** One entry of `APIClient.images()`: `Id`, `RepoTags`, `Created`, `Size`, `VirtualSize`, `Labels`. */
  datatype RawImage = RawImage(
    id: string,
    repoTags: seq<string>,
    created: Json,
    size: int,
    virtualSize: Json,
    labels: Json)

  /** One entry of `APIClient.networks()`. */
  datatype RawNetwork = RawNetwork(
    id: string,
    name: string,
    driver: string,
    scope: Json,
    created: Json,
    labels: Json,
    options: Json,
    ipam: Json)

  /** One entry of the `Volumes` list inside the response of `APIClient.volumes()`. */
  datatype RawVolume = RawVolume(
    name: string,
    driver: string,
    mountpoint: Json,
    createdAt: Json,
    labels: Json,
    options: Json,
    scope: string)

  /** The resources that are fetched by id or name before being acted on. */
  datatype Kind = ContainerKind | NetworkKind | VolumeKind

  /**
   * One call into the engine client, with the arguments it receives. `force` is `None` when
   * the call is made without a `force` keyword.
   */
  datatype Call =
    | ListContainers(all: Json)
    | GetContainer(id: Json)
    | CreateContainer
    | RunContainer
    | StartContainer(id: Json)
    | StopContainer(id: Json)
    | RemoveContainer(id: Json, force: Option<Json>)
    | ContainerLogs(id: Json, tail: Json)
    | ListImages(all: Json)
    | PullImage(repository: Json, tag: Json)
    | PushImage(repository: Json, tag: Json)
    | BuildImage(path: Json, tag: Json)
    | RemoveImage(image: Json, force: Option<Json>)
    | ListNetworks
    | CreateNetwork(name: Json, driver: Json, internal: Json)
    | GetNetwork(id: Json)
    | RemoveNetwork(id: Json)
    | ListVolumes
    | CreateVolume(name: Json, driver: Json)
    | GetVolume(id: Json)
    | RemoveVolume(id: Json, force: Option<Json>)

  /**
   * What the engine answers: the raw listings, the containers it knows (each with the text
   * its `logs()` call returns), the networks and volumes it knows, and the image and log
   * entries a build yields.
   */
  datatype Engine = Engine(
    rawContainers: seq<RawContainer>,
    rawImages: seq<RawImage>,
    rawNetworks: seq<RawNetwork>,
    rawVolumes: seq<RawVolume>,
    containerLogs: map<Json, string>,
    networks: set<Json>,
    volumes: set<Json>,
    builtImage: Json,
    buildLogs: seq<Json>)

  /** The ids a `get` of this kind finds. */
  function Known(engine: Engine, kind: Kind): set<Json> {
    match kind
    case ContainerKind => engine.containerLogs.Keys
    case NetworkKind => engine.networks
    case VolumeKind => engine.volumes
  }

  /** `client.containers.get`, `client.networks.get` or `client.volumes.get` of `id`. */
  function GetCall(kind: Kind, id: Json): (c: Call)
    ensures c.GetContainer? || c.GetNetwork? || c.GetVolume?
    ensures c.id == id
  {
    match kind
    case ContainerKind => GetContainer(id)
    case NetworkKind => GetNetwork(id)
    case VolumeKind => GetVolume(id)
  }
}

=== FILE: handler_cases.dfy ===
/**
 * The concrete scenarios of the handlers' unit tests, stated against the model: the same
 * raw records, arguments and engine answers give the same results and call traces.
 */
module HandlerCases {

  import opened Base
  import opened Text
  import opened DockerEngine
  import opened Summaries
  import opened Handlers

  /** An engine that reports nothing and knows nothing. */
  const EmptyEngine := Engine([], [], [], [], map[], {}, {}, JNull, [])

  /** The listing entry of the container test. */
  const TestContainer := RawContainer(
    "test_container_id", ["/test_container"], "test:latest",
    JList([JStr("test"), JStr("command")]), JInt(1694876781), "Up 2 hours", JList([]))

  /** A container listing with `all` set gives the truncated id, the unslashed name and the image. */
  lemma ListContainersCase()
    ensures var h := HandleContainerTools("list_containers", map["all" := JBool(true)],
                                          EmptyEngine.(rawContainers := [TestContainer]));
            && h.calls == [ListContainers(JBool(true))]
            && h.outcome.result.value.containers[0].id == "test_contain"
            && h.outcome.result.value.containers[0].names == "test_container"
            && h.outcome.result.value.containers[0].image == "test:latest"
  {
    var h := HandleContainerTools("list_containers", map["all" := JBool(true)],
                                  EmptyEngine.(rawContainers := [TestContainer]));
    assert "test_container_id"[..12] == "test_contain";
    assert "/test_container"[1..] == "test_container";
    assert StartsWith("/test_container", "/");
    assert h.outcome.result.value.containers[0] == SummarizeContainer(TestContainer);
  }

  /** An empty listing gives an empty result from one listing call. */
  lemma ListContainersEmptyCase()
    ensures HandleContainerTools("list_containers", map[], EmptyEngine)
            == Handled(Returned(Some(ContainerList([]))), [ListContainers(JBool(false))])
  {
  }

  /** The image test: the digest loses `sha256:` and is cut to twelve characters. */
  lemma ListImagesCase()
    ensures var raw := RawImage("sha256:test_image_id", ["test:latest"], JInt(1694876781), 123456789, JInt(123456789), JNull);
            var h := HandleImageTools("list_images", map["all" := JBool(true)], EmptyEngine.(rawImages := [raw]));
            && h.calls == [ListImages(JBool(true))]
            && h.outcome.result.value.images[0].id == "test_image_i"
            && h.outcome.result.value.images[0].repoTags == ["test:latest"]
            && h.outcome.result.value.images[0].size == 123456789
  {
    ImageShortIdOfDigest("test_image_id");
    assert "test_image_id"[..12] == "test_image_i";
    assert DigestPrefix + "test_image_id" == "sha256:test_image_id";
  }

  /** The network test: the id is cut to twelve characters. */
  lemma ListNetworksCase()
    ensures var raw := RawNetwork("test_network_id123", "test_network", "bridge", JStr("local"),
                                  JStr("2025-09-16T15:00:00Z"), JNull, JNull, JNull);
            var h := HandleNetworkTools("list_networks", map[], EmptyEngine.(rawNetworks := [raw]));
            && h.calls == [ListNetworks]
            && h.outcome.result.value.networks[0].id == "test_network"
            && h.outcome.result.value.networks[0].name == "test_network"
            && h.outcome.result.value.networks[0].driver == "bridge"
  {
    assert "test_network_id123"[..12] == "test_network";
  }

  /** The log text of the log test splits into its two lines and a final empty one. */
  lemma TestLogLines()
    ensures LogLines("log line 1\nlog line 2\n") == ["log line 1", "log line 2", ""]
  {
    var pieces := ["log line 1", "log line 2", ""];
    assert Join(pieces, '\n') == "log line 1\nlog line 2\n" by {
      assert Join(pieces[2..], '\n') == "";
      assert Join(pieces[1..], '\n') == "log line 2" + ['\n'] + "";
    }
    LogLinesUnique("log line 1\nlog line 2\n", pieces);
  }

  /** The log test: `tail` is passed on and the text comes back as its lines. */
  lemma LogsCase()
    ensures var engine := EmptyEngine.(containerLogs := map[JStr("test_id") := "log line 1\nlog line 2\n"]);
            var h := HandleContainerTools("fetch_container_logs", map["container_id" := JStr("test_id"), "tail" := JInt(100)], engine);
            && h.calls == [GetContainer(JStr("test_id")), ContainerLogs(JStr("test_id"), JInt(100))]
            && h.outcome == Returned(Some(Logs(["log line 1", "log line 2", ""])))
  {
    var engine := EmptyEngine.(containerLogs := map[JStr("test_id") := "log line 1\nlog line 2\n"]);
    var args := map["container_id" := JStr("test_id"), "tail" := JInt(100)];
    assert Found(args, "container_id", engine, ContainerKind);
    TestLogLines();
  }

  /** A text without a final newline gives no empty last line. */
  lemma LogsWithoutFinalNewline()
    ensures LogLines("a\nb") == ["a", "b"]
  {
    var pieces := ["a", "b"];
    assert Join(pieces, '\n') == "a\nb" by {
      assert Join(pieces[1..], '\n') == "b";
    }
    LogLinesUnique("a\nb", pieces);
  }

  /** An engine that knows the one container `test_id`, whose log text is empty. */
  const TestIdEngine := EmptyEngine.(containerLogs := map[JStr("test_id") := ""])

  /** The recreate test: one lookup of `test_id`, then one stop, one remove and one run. */
  lemma RecreateCase()
    ensures var h := HandleContainerTools("recreate_container", map["container_id" := JStr("test_id")], TestIdEngine);
            && ReturnedSome(h)
            && multiset(h.calls)[GetContainer(JStr("test_id"))] == 1
            && multiset(h.calls)[StopContainer(JStr("test_id"))] == 1
            && multiset(h.calls)[RemoveContainer(JStr("test_id"), None)] == 1
            && multiset(h.calls)[RunContainer] == 1
  {
    assert Found(map["container_id" := JStr("test_id")], "container_id", TestIdEngine, ContainerKind);
  }

  /** The start and stop tests: one lookup of `test_id`, then the one transition asked for. */
  lemma StartStopCase()
    ensures var args := map["container_id" := JStr("test_id")];
            && HandleContainerTools("start_container", args, TestIdEngine)
               == Handled(Returned(Some(Acknowledged)), [GetContainer(JStr("test_id")), StartContainer(JStr("test_id"))])
            && HandleContainerTools("stop_container", args, TestIdEngine)
               == Handled(Returned(Some(Acknowledged)), [GetContainer(JStr("test_id")), StopContainer(JStr("test_id"))])
  {
  }

  /** The pull test: repository `nginx` goes positionally and `tag` as a keyword. */
  lemma PullCase()
    ensures var h := HandleImageTools("pull_image", map["repository" := JStr("nginx"), "tag" := JStr("latest")], EmptyEngine);
            ReturnedSome(h) && h.calls == [PullImage(JStr("nginx"), JStr("latest"))]
  {
  }

  /** The network create and remove tests: the defaults fill `driver` and `internal`; removal looks up first. */
  lemma NetworkCreateRemoveCase()
    ensures var engine := EmptyEngine.(networks := {JStr("test_network_id")});
            && HandleNetworkTools("create_network", map["name" := JStr("test_network")], engine).calls
               == [CreateNetwork(JStr("test_network"), JStr("bridge"), JBool(false))]
            && HandleNetworkTools("remove_network", map["network_id" := JStr("test_network_id")], engine)
               == Handled(Returned(Some(Acknowledged)), [GetNetwork(JStr("test_network_id")), RemoveNetwork(JStr("test_network_id"))])
  {
  }

  /** The volume list and create tests: name, driver and scope come through; `driver` defaults to `local`. */
  lemma VolumeListCreateCase()
    ensures var raw := RawVolume("test_volume", "local", JStr("/var/lib/docker/volumes/test_volume/_data"),
                                 JStr("2025-09-16T15:00:00Z"), JNull, JNull, "local");
            var h := HandleVolumeTools("list_volumes", map[], EmptyEngine.(rawVolumes := [raw]));
            && h.calls == [ListVolumes]
            && |h.outcome.result.value.volumes| == 1
            && h.outcome.result.value.volumes[0].name == "test_volume"
            && h.outcome.result.value.volumes[0].driver == "local"
            && h.outcome.result.value.volumes[0].scope == "local"
            && HandleVolumeTools("create_volume", map["name" := JStr("test_volume")], EmptyEngine).calls
               == [CreateVolume(JStr("test_volume"), JStr("local"))]
  {
  }

  /** The not-found test: starting an unknown container raises after the one lookup. */
  lemma ContainerNotFoundCase()
    ensures HandleContainerTools("start_container", map["container_id" := JStr("nonexistent")], EmptyEngine)
            == Handled(Raised(NotFound(JStr("nonexistent"))), [GetContainer(JStr("nonexistent"))])
  {
  }

  /** The remove tests: `force=False` reaches the engine as given, for containers, images and volumes. */
  lemma RemoveForwardsForceCase()
    ensures var engine := EmptyEngine.(containerLogs := map[JStr("test_id") := ""], volumes := {JStr("test_volume")});
            && HandleContainerTools("remove_container", map["container_id" := JStr("test_id"), "force" := JBool(false)], engine).calls
               == [GetContainer(JStr("test_id")), RemoveContainer(JStr("test_id"), Some(JBool(false)))]
            && HandleImageTools("remove_image", map["image" := JStr("test:latest"), "force" := JBool(false)], engine)
               == Handled(Returned(Some(ImageRemoved(JStr("test:latest")))), [RemoveImage(JStr("test:latest"), Some(JBool(false)))])
            && HandleVolumeTools("remove_volume", map["volume_name" := JStr("test_volume"), "force" := JBool(false)], engine).calls
               == [GetVolume(JStr("test_volume")), RemoveVolume(JStr("test_volume"), Some(JBool(false)))]
  {
  }

  /** The build test: `path` and `tag` reach the engine, and the build log entries come back unchanged. */
  lemma BuildCase(image: Json, logs: seq<Json>)
    ensures var h := HandleImageTools("build_image", map["path" := JStr("/tmp"), "tag" := JStr("test:latest")],
                                      EmptyEngine.(builtImage := image, buildLogs := logs));
            && h.calls == [BuildImage(JStr("/tmp"), JStr("test:latest"))]
            && h.outcome == Returned(Some(Built(image, logs)))
  {
  }

  /** The push test, with repository `nginx` and tag `latest`: the status record echoes both. */
  lemma PushCase()
    ensures var h := HandleImageTools("push_image", map["repository" := JStr("nginx"), "tag" := JStr("latest")], EmptyEngine);
            && h.calls == [PushImage(JStr("nginx"), JStr("latest"))]
            && h.outcome == Returned(Some(Pushed(JStr("nginx"), JStr("latest"))))
  {
  }

  /** The unknown-tool tests: every group answers `None` and calls nothing. */
  lemma UnknownToolCase(args: Args, engine: Engine)
    ensures HandleContainerTools("unknown_tool", args, engine) == NoResult
    ensures HandleImageTools("unknown_tool", args, engine) == NoResult
    ensures HandleNetworkTools("unknown_tool", args, engine) == NoResult
    ensures HandleVolumeTools("unknown_tool", args, engine) == NoResult
  {
  }
}

=== FILE: handlers.dfy ===
/**
 * The four tool handlers: each maps a tool name and an argument mapping to engine calls and
 * a result. Only what the handlers' unit tests fix is modelled: the projections of the list
 * tools, the line split of logs, the calls each tool makes and with which arguments, that
 * a failed lookup propagates, and that an unknown tool name yields no result and no call.
 */
module Handlers {

  import opened Base
  import opened Text
  import opened DockerEngine
  import opened Summaries

  /** The argument mapping of one tool call. */
  type Args = map<string, Json>

  /** What a tool returns when it does not return `None`. */
  datatype ToolResult =
    | ContainerList(containers: seq<ContainerSummary>)
    | ImageList(images: seq<ImageSummary>)
    | NetworkList(networks: seq<NetworkSummary>)
    | VolumeList(volumes: seq<VolumeSummary>)
    | Logs(lines: seq<string>)
    | Pushed(repository: Json, tag: Json)
    | Built(image: Json, buildLogs: seq<Json>)
    | ImageRemoved(image: Json)
    /** A result whose fields the tests leave open: only that it is not `None`. */
    | Acknowledged

  /** The exceptions that leave a handler. */
  datatype HandlerError =
    | NotFound(id: Json)
    | MissingArgument(key: string)

  /** A handler either returns (possibly `None`) or raises. */
  datatype Outcome =
    | Returned(result: Option<ToolResult>)
    | Raised(error: HandlerError)

  /** The outcome of one tool call, with the engine calls it made, in order. */
  datatype Handled = Handled(outcome: Outcome, calls: seq<Call>)

  /** The outcome of a name the group does not know. */
  const NoResult := Handled(Returned(None), [])

  /** `arguments.get(key, default)` */
  function ArgOr(args: Args, key: string, default: Json): Json {
    if key in args then args[key] else default
  }

  /** The tool returned a result, not `None`, and raised nothing. */
  predicate ReturnedSome(h: Handled) {
    h.outcome.Returned? && h.outcome.result.Some?
  }

  /**
   * How a tool that starts by fetching `args[key]` behaves when the fetch cannot succeed:
   * without the key it raises before any call, and for an id the engine does not know it makes
   * the one `get` call and raises `NotFound`.
   */
  predicate StopsAtFailedLookup(h: Handled, args: Args, key: string, engine: Engine, kind: Kind) {
    && (key !in args ==> h == Handled(Raised(MissingArgument(key)), []))
    && (key in args && args[key] !in Known(engine, kind) ==>
          h == Handled(Raised(NotFound(args[key])), [GetCall(kind, args[key])]))
  }

  /** `args[key]` is present and names a resource of this kind the engine knows. */
  predicate Found(args: Args, key: string, engine: Engine, kind: Kind) {
    key in args && args[key] in Known(engine, kind)
  }

  /** `client.<kind>s.get(arguments[key])`: the id fetched, or the handler's outcome when the fetch fails. */
  function Fetch(args: Args, key: string, engine: Engine, kind: Kind): (r: Result<Json, Handled>)
    ensures r.Ok? <==> Found(args, key, engine, kind)
    ensures r.Ok? ==> r.value == args[key]
    ensures r.Err? ==> StopsAtFailedLookup(r.error, args, key, engine, kind)
  {
    if key !in args then Err(Handled(Raised(MissingArgument(key)), []))
    else if args[key] !in Known(engine, kind) then Err(Handled(Raised(NotFound(args[key])), [GetCall(kind, args[key])]))
    else Ok(args[key])
  }

  // ---------------------------------------------------------------- containers

  const ContainerTools: set<string> :=
    {"list_containers", "create_container", "run_container", "recreate_container",
     "start_container", "stop_container", "remove_container", "fetch_container_logs"}

  /** The container tools that fetch `container_id` first. */
  const ContainerLookupTools: set<string> :=
    {"recreate_container", "start_container", "stop_container", "remove_container", "fetch_container_logs"}

  /** `list_containers`: one summary per raw entry, from one raw listing call with `all` forwarded. */
  function ListContainersTool(args: Args, engine: Engine): (h: Handled)
    ensures h.calls == [ListContainers(ArgOr(args, "all", JBool(false)))]
    ensures ReturnedSome(h) && h.outcome.result.value.ContainerList?
    ensures var s := h.outcome.result.value.containers;
            && |s| == |engine.rawContainers|
            && forall i :: 0 <= i < |s| ==> s[i] == SummarizeContainer(engine.rawContainers[i])
  {
    var s := SummarizeContainers(engine.rawContainers);
    Handled(Returned(Some(ContainerList(s))), [ListContainers(ArgOr(args, "all", JBool(false)))])
  }

  /**
   * `recreate_container`: after fetching the container it stops it, removes it and runs a new
   * one, each exactly once; nothing else is called.
   */
  function RecreateContainerTool(args: Args, engine: Engine): (h: Handled)
    ensures StopsAtFailedLookup(h, args, "container_id", engine, ContainerKind)
    ensures Found(args, "container_id", engine, ContainerKind) ==>
              var id := args["container_id"];
              && ReturnedSome(h)
              && |h.calls| == 4
              && multiset(h.calls)[GetContainer(id)] == 1
              && multiset(h.calls)[StopContainer(id)] == 1
              && multiset(h.calls)[RemoveContainer(id, None)] == 1
              && multiset(h.calls)[RunContainer] == 1
  {
    match Fetch(args, "container_id", engine, ContainerKind)
    case Err(failed) => failed
    case Ok(id) =>
      var calls := [GetContainer(id), StopContainer(id), RemoveContainer(id, None), RunContainer];
      assert multiset(calls) == multiset{GetContainer(id), StopContainer(id), RemoveContainer(id, None), RunContainer};
      Handled(Returned(Some(Acknowledged)), calls)
  }

  /** `start_container` and `stop_container`: fetch, then the one transition on that container. */
  function TransitionTool(args: Args, engine: Engine, start: bool): (h: Handled)
    ensures StopsAtFailedLookup(h, args, "container_id", engine, ContainerKind)
    ensures Found(args, "container_id", engine, ContainerKind) ==>
              var id := args["container_id"];
              && ReturnedSome(h)
              && h.calls == [GetContainer(id), if start then StartContainer(id) else StopContainer(id)]
  {
    match Fetch(args, "container_id", engine, ContainerKind)
    case Err(failed) => failed
    case Ok(id) =>
      Handled(Returned(Some(Acknowledged)), [GetContainer(id), if start then StartContainer(id) else StopContainer(id)])
  }

  /** `remove_container`: fetch, then remove with the caller's `force` (false when absent) passed on as it is. */
  function RemoveContainerTool(args: Args, engine: Engine): (h: Handled)
    ensures StopsAtFailedLookup(h, args, "container_id", engine, ContainerKind)
    ensures Found(args, "container_id", engine, ContainerKind) ==>
              var id := args["container_id"];
              && ReturnedSome(h)
              && h.calls == [GetContainer(id), RemoveContainer(id, Some(ArgOr(args, "force", JBool(false))))]
  {
    match Fetch(args, "container_id", engine, ContainerKind)
    case Err(failed) => failed
    case Ok(id) =>
      Handled(Returned(Some(Acknowledged)), [GetContainer(id), RemoveContainer(id, Some(ArgOr(args, "force", JBool(false))))])
  }

  /**
   * `fetch_container_logs`: fetch, ask for the last `tail` lines (100 when absent), and return
   * the text split on newlines; joining the lines gives the engine's text back.
   */
  function FetchContainerLogsTool(args: Args, engine: Engine): (h: Handled)
    ensures StopsAtFailedLookup(h, args, "container_id", engine, ContainerKind)
    ensures Found(args, "container_id", engine, ContainerKind) ==>
              var id := args["container_id"];
              && h.calls == [GetContainer(id), ContainerLogs(id, ArgOr(args, "tail", JInt(100)))]
              && ReturnedSome(h) && h.outcome.result.value.Logs?
              && Join(h.outcome.result.value.lines, '\n') == engine.containerLogs[id]
              && forall i :: 0 <= i < |h.outcome.result.value.lines| ==> '\n' !in h.outcome.result.value.lines[i]
  {
    match Fetch(args, "container_id", engine, ContainerKind)
    case Err(failed) => failed
    case Ok(id) =>
      Handled(Returned(Some(Logs(LogLines(engine.containerLogs[id])))),
              [GetContainer(id), ContainerLogs(id, ArgOr(args, "tail", JInt(100)))])
  }

  /** The container tools that fetch `container_id` first, each routed to its own tool. */
  function ContainerLookupTool(name: string, args: Args, engine: Engine): (h: Handled)
    requires name in ContainerLookupTools
    ensures StopsAtFailedLookup(h, args, "container_id", engine, ContainerKind)
    ensures name == "recreate_container" && Found(args, "container_id", engine, ContainerKind) ==>
              var id := args["container_id"];
              && ReturnedSome(h)
              && |h.calls| == 4
              && multiset(h.calls)[GetContainer(id)] == 1
              && multiset(h.calls)[StopContainer(id)] == 1
              && multiset(h.calls)[RemoveContainer(id, None)] == 1
              && multiset(h.calls)[RunContainer] == 1
    ensures name == "start_container" && Found(args, "container_id", engine, ContainerKind) ==>
              ReturnedSome(h) && h.calls == [GetContainer(args["container_id"]), StartContainer(args["container_id"])]
    ensures name == "stop_container" && Found(args, "container_id", engine, ContainerKind) ==>
              ReturnedSome(h) && h.calls == [GetContainer(args["container_id"]), StopContainer(args["container_id"])]
    ensures name == "remove_container" && Found(args, "container_id", engine, ContainerKind) ==>
              var id := args["container_id"];
              ReturnedSome(h) && h.calls == [GetContainer(id), RemoveContainer(id, Some(ArgOr(args, "force", JBool(false))))]
    ensures name == "fetch_container_logs" && Found(args, "container_id", engine, ContainerKind) ==>
              var id := args["container_id"];
              && h.calls == [GetContainer(id), ContainerLogs(id, ArgOr(args, "tail", JInt(100)))]
              && ReturnedSome(h) && h.outcome.result.value.Logs?
              && Join(h.outcome.result.value.lines, '\n') == engine.containerLogs[id]
              && forall i :: 0 <= i < |h.outcome.result.value.lines| ==> '\n' !in h.outcome.result.value.lines[i]
  {
    if name == "recreate_container" then RecreateContainerTool(args, engine)
    else if name == "start_container" then TransitionTool(args, engine, true)
    else if name == "stop_container" then TransitionTool(args, engine, false)
    else if name == "remove_container" then RemoveContainerTool(args, engine)
    else FetchContainerLogsTool(args, engine)
  }

  /** `_handle_container_tools(name, arguments)` */
  function HandleContainerTools(name: string, args: Args, engine: Engine): (h: Handled)
    ensures h.outcome == Returned(None) <==> name !in ContainerTools
    ensures name !in ContainerTools ==> h.calls == []
    ensures name == "list_containers" ==>
              && ReturnedSome(h) && h.outcome.result.value.ContainerList?
              && h.calls == [ListContainers(ArgOr(args, "all", JBool(false)))]
    ensures name == "list_containers" ==> h == ListContainersTool(args, engine)
    ensures name == "create_container" ==> ReturnedSome(h) && h.calls == [CreateContainer]
    ensures name == "run_container" ==> ReturnedSome(h) && h.calls == [RunContainer]
    ensures name in ContainerLookupTools ==> h == ContainerLookupTool(name, args, engine)
  {
    if name == "list_containers" then ListContainersTool(args, engine)
    else if name == "create_container" then Handled(Returned(Some(Acknowledged)), [CreateContainer])
    else if name == "run_container" then Handled(Returned(Some(Acknowledged)), [RunContainer])
    else if name in ContainerLookupTools then ContainerLookupTool(name, args, engine)
    else NoResult
  }

  // ---------------------------------------------------------------- images

  const ImageTools: set<string> := {"list_images", "pull_image", "push_image", "build_image", "remove_image"}

  /** `arguments[key]`, or the `KeyError` it raises before any engine call. */
  function Required(args: Args, key: string): (r: Result<Json, Handled>)
    ensures r.Ok? <==> key in args
    ensures r.Ok? ==> r.value == args[key]
    ensures r.Err? ==> r.error == Handled(Raised(MissingArgument(key)), [])
  {
    if key in args then Ok(args[key]) else Err(Handled(Raised(MissingArgument(key)), []))
  }

  /** `list_images`: one summary per raw entry, from one raw listing call with `all` forwarded. */
  function ListImagesTool(args: Args, engine: Engine): (h: Handled)
    ensures h.calls == [ListImages(ArgOr(args, "all", JBool(false)))]
    ensures ReturnedSome(h) && h.outcome.result.value.ImageList?
    ensures var s := h.outcome.result.value.images;
            && |s| == |engine.rawImages|
            && forall i :: 0 <= i < |s| ==> s[i].id == ImageShortId(engine.rawImages[i].id)
                                            && s[i].repoTags == engine.rawImages[i].repoTags
                                            && s[i].size == engine.rawImages[i].size
  {
    Handled(Returned(Some(ImageList(SummarizeImages(engine.rawImages)))), [ListImages(ArgOr(args, "all", JBool(false)))])
  }

  /**
   * The image tools other than listing. Pull and push pass the repository positionally and
   * `tag` (None when absent) as a keyword; build passes `path` and `tag`; remove passes the
   * image and the caller's `force` (false when absent).
   */
  function ImageActionTool(name: string, args: Args, engine: Engine): (h: Handled)
    requires name in {"pull_image", "push_image", "build_image", "remove_image"}
    ensures var key := if name == "build_image" then "path" else if name == "remove_image" then "image" else "repository";
            && (key !in args ==> h == Handled(Raised(MissingArgument(key)), []))
            && (key in args ==> ReturnedSome(h) && |h.calls| == 1)
    ensures name == "pull_image" && "repository" in args ==>
              h.calls == [PullImage(args["repository"], ArgOr(args, "tag", JNull))]
    ensures name == "push_image" && "repository" in args ==>
              && h.calls == [PushImage(args["repository"], ArgOr(args, "tag", JNull))]
              && h.outcome.result.value == Pushed(args["repository"], ArgOr(args, "tag", JNull))
    ensures name == "build_image" && "path" in args ==>
              && h.calls == [BuildImage(args["path"], ArgOr(args, "tag", JNull))]
              && h.outcome.result.value == Built(engine.builtImage, engine.buildLogs)
    ensures name == "remove_image" && "image" in args ==>
              && h.calls == [RemoveImage(args["image"], Some(ArgOr(args, "force", JBool(false))))]
              && h.outcome.result.value == ImageRemoved(args["image"])
  {
    var tag := ArgOr(args, "tag", JNull);
    if name == "pull_image" then
      match Required(args, "repository")
      case Err(failed) => failed
      case Ok(repository) => Handled(Returned(Some(Acknowledged)), [PullImage(repository, tag)])
    else if name == "push_image" then
      match Required(args, "repository")
      case Err(failed) => failed
      case Ok(repository) => Handled(Returned(Some(Pushed(repository, tag))), [PushImage(repository, tag)])
    else if name == "build_image" then
      match Required(args, "path")
      case Err(failed) => failed
      case Ok(path) => Handled(Returned(Some(Built(engine.builtImage, engine.buildLogs))), [BuildImage(path, tag)])
    else
      match Required(args, "image")
      case Err(failed) => failed
      case Ok(image) =>
        Handled(Returned(Some(ImageRemoved(image))), [RemoveImage(image, Some(ArgOr(args, "force", JBool(false))))])
  }

  /** `_handle_image_tools(name, arguments)` */
  function HandleImageTools(name: string, args: Args, engine: Engine): (h: Handled)
    ensures h.outcome == Returned(None) <==> name !in ImageTools
    ensures name !in ImageTools ==> h.calls == []
    ensures name in ImageTools ==> |h.calls| <= 1
    ensures name == "list_images" ==>
              && ReturnedSome(h) && h.outcome.result.value.ImageList?
              && h.calls == [ListImages(ArgOr(args, "all", JBool(false)))]
    ensures name == "list_images" ==> h == ListImagesTool(args, engine)
    ensures name in ImageTools - {"list_images"} ==>
              var key := if name == "build_image" then "path" else if name == "remove_image" then "image" else "repository";
              key !in args ==> h == Handled(Raised(MissingArgument(key)), [])
    ensures name == "pull_image" && "repository" in args ==>
              ReturnedSome(h) && h.calls == [PullImage(args["repository"], ArgOr(args, "tag", JNull))]
    ensures name == "push_image" && "repository" in args ==>
              && h.calls == [PushImage(args["repository"], ArgOr(args, "tag", JNull))]
              && h.outcome == Returned(Some(Pushed(args["repository"], ArgOr(args, "tag", JNull))))
    ensures name == "build_image" && "path" in args ==>
              && h.calls == [BuildImage(args["path"], ArgOr(args, "tag", JNull))]
              && h.outcome == Returned(Some(Built(engine.builtImage, engine.buildLogs)))
    ensures name == "remove_image" && "image" in args ==>
              && h.calls == [RemoveImage(args["image"], Some(ArgOr(args, "force", JBool(false))))]
              && h.outcome == Returned(Some(ImageRemoved(args["image"])))
  {
    if name == "list_images" then ListImagesTool(args, engine)
    else if name in {"pull_image", "push_image", "build_image", "remove_image"} then ImageActionTool(name, args, engine)
    else NoResult
  }

  // ---------------------------------------------------------------- networks

  const NetworkTools: set<string> := {"list_networks", "create_network", "remove_network"}

  /** `list_networks`: one summary per raw entry, from one raw listing call. */
  function ListNetworksTool(engine: Engine): (h: Handled)
    ensures h.calls == [ListNetworks]
    ensures ReturnedSome(h) && h.outcome.result.value.NetworkList?
    ensures var s := h.outcome.result.value.networks;
            && |s| == |engine.rawNetworks|
            && forall i :: 0 <= i < |s| ==> s[i] == SummarizeNetwork(engine.rawNetworks[i])
  {
    var s := SummarizeNetworks(engine.rawNetworks);
    Handled(Returned(Some(NetworkList(s))), [ListNetworks])
  }

  /** `create_network`: one create call with `driver` ("bridge" when absent) and `internal` (false when absent). */
  function CreateNetworkTool(args: Args): (h: Handled)
    ensures "name" !in args ==> h == Handled(Raised(MissingArgument("name")), [])
    ensures "name" in args ==>
              && ReturnedSome(h)
              && h.calls == [CreateNetwork(args["name"], ArgOr(args, "driver", JStr("bridge")), ArgOr(args, "internal", JBool(false)))]
  {
    match Required(args, "name")
    case Err(failed) => failed
    case Ok(name) =>
      Handled(Returned(Some(Acknowledged)),
              [CreateNetwork(name, ArgOr(args, "driver", JStr("bridge")), ArgOr(args, "internal", JBool(false)))])
  }

  /** `remove_network`: fetch the network, then remove it once. */
  function RemoveNetworkTool(args: Args, engine: Engine): (h: Handled)
    ensures StopsAtFailedLookup(h, args, "network_id", engine, NetworkKind)
    ensures Found(args, "network_id", engine, NetworkKind) ==>
              ReturnedSome(h) && h.calls == [GetNetwork(args["network_id"]), RemoveNetwork(args["network_id"])]
  {
    match Fetch(args, "network_id", engine, NetworkKind)
    case Err(failed) => failed
    case Ok(id) => Handled(Returned(Some(Acknowledged)), [GetNetwork(id), RemoveNetwork(id)])
  }

  /** `_handle_network_tools(name, arguments)` */
  function HandleNetworkTools(name: string, args: Args, engine: Engine): (h: Handled)
    ensures h.outcome == Returned(None) <==> name !in NetworkTools
    ensures name !in NetworkTools ==> h.calls == []
    ensures name == "list_networks" ==>
              ReturnedSome(h) && h.outcome.result.value.NetworkList? && h.calls == [ListNetworks]
    ensures name == "list_networks" ==> h == ListNetworksTool(engine)
    ensures name == "create_network" && "name" !in args ==> h == Handled(Raised(MissingArgument("name")), [])
    ensures name == "create_network" && "name" in args ==>
              && ReturnedSome(h)
              && h.calls == [CreateNetwork(args["name"], ArgOr(args, "driver", JStr("bridge")), ArgOr(args, "internal", JBool(false)))]
    ensures name == "remove_network" ==> StopsAtFailedLookup(h, args, "network_id", engine, NetworkKind)
    ensures name == "remove_network" && Found(args, "network_id", engine, NetworkKind) ==>
              ReturnedSome(h) && h.calls == [GetNetwork(args["network_id"]), RemoveNetwork(args["network_id"])]
  {
    if name == "list_networks" then ListNetworksTool(engine)
    else if name == "create_network" then CreateNetworkTool(args)
    else if name == "remove_network" then RemoveNetworkTool(args, engine)
    else NoResult
  }

  // ---------------------------------------------------------------- volumes

  const VolumeTools: set<string> := {"list_volumes", "create_volume", "remove_volume"}

  /** `list_volumes`: the `Volumes` list of one raw listing call, each entry kept whole. */
  function ListVolumesTool(engine: Engine): (h: Handled)
    ensures h.calls == [ListVolumes]
    ensures ReturnedSome(h) && h.outcome.result.value.VolumeList?
    ensures var s := h.outcome.result.value.volumes;
            && |s| == |engine.rawVolumes|
            && forall i :: 0 <= i < |s| ==> && s[i].name == engine.rawVolumes[i].name
                                            && s[i].driver == engine.rawVolumes[i].driver
                                            && s[i].scope == engine.rawVolumes[i].scope
  {
    Handled(Returned(Some(VolumeList(SummarizeVolumes(engine.rawVolumes)))), [ListVolumes])
  }

  /** `create_volume`: one create call with `driver` ("local" when absent). */
  function CreateVolumeTool(args: Args): (h: Handled)
    ensures "name" !in args ==> h == Handled(Raised(MissingArgument("name")), [])
    ensures "name" in args ==>
              ReturnedSome(h) && h.calls == [CreateVolume(args["name"], ArgOr(args, "driver", JStr("local")))]
  {
    match Required(args, "name")
    case Err(failed) => failed
    case Ok(name) => Handled(Returned(Some(Acknowledged)), [CreateVolume(name, ArgOr(args, "driver", JStr("local")))])
  }

  /** `remove_volume`: fetch the volume, then remove it with the caller's `force` (false when absent). */
  function RemoveVolumeTool(args: Args, engine: Engine): (h: Handled)
    ensures StopsAtFailedLookup(h, args, "volume_name", engine, VolumeKind)
    ensures Found(args, "volume_name", engine, VolumeKind) ==>
              var id := args["volume_name"];
              ReturnedSome(h) && h.calls == [GetVolume(id), RemoveVolume(id, Some(ArgOr(args, "force", JBool(false))))]
  {
    match Fetch(args, "volume_name", engine, VolumeKind)
    case Err(failed) => failed
    case Ok(id) =>
      Handled(Returned(Some(Acknowledged)), [GetVolume(id), RemoveVolume(id, Some(ArgOr(args, "force", JBool(false))))])
  }

  /** `_handle_volume_tools(name, arguments)` */
  function HandleVolumeTools(name: string, args: Args, engine: Engine): (h: Handled)
    ensures h.outcome == Returned(None) <==> name !in VolumeTools
    ensures name !in VolumeTools ==> h.calls == []
    ensures name == "list_volumes" ==>
              ReturnedSome(h) && h.outcome.result.value.VolumeList? && h.calls == [ListVolumes]
    ensures name == "list_volumes" ==> h == ListVolumesTool(engine)
    ensures name == "create_volume" && "name" !in args ==> h == Handled(Raised(MissingArgument("name")), [])
    ensures name == "create_volume" && "name" in args ==>
              ReturnedSome(h) && h.calls == [CreateVolume(args["name"], ArgOr(args, "driver", JStr("local")))]
    ensures name == "remove_volume" ==> StopsAtFailedLookup(h, args, "volume_name", engine, VolumeKind)
    ensures name == "remove_volume" && Found(args, "volume_name", engine, VolumeKind) ==>
              var id := args["volume_name"];
              ReturnedSome(h) && h.calls == [GetVolume(id), RemoveVolume(id, Some(ArgOr(args, "force", JBool(false))))]
  {
    if name == "list_volumes" then ListVolumesTool(engine)
    else if name == "create_volume" then CreateVolumeTool(args)
    else if name == "remove_volume" then RemoveVolumeTool(args, engine)
    else NoResult
  }
}

=== FILE: host_key.dfy ===
/**
 * `_ensure_ssh_host_key_trusted`: works out which host and port to scan, refuses a hostname
 * outside `[a-zA-Z0-9.-]` or a port outside 1..65535, and appends the scan output to
 * `known_hosts` only when the `[host]:port` marker is not there yet. Running `ssh-keyscan`
 * and touching the filesystem are I/O: the scan's outcome and the file's content are parameters.
 */
module HostKey {

  import opened Base
  import opened Text
  import opened UrlParse
  import opened SshConfig

  /** The port assumed when neither the URL nor the config names one. */
  const SshPort: nat := 22

  /** The highest port the guard admits. */
  const MaxPort: nat := 65535

  /** A host and port `ssh-keyscan -p port host` would be run for. */
  datatype Target = Target(host: string, port: int)

  /** What running `ssh-keyscan` produced: it raised, or it exited with a code and an output. */
  datatype ScanResult =
    | ScanRaised
    | Exited(code: int, stdout: string)

  /** One character of the class `[a-zA-Z0-9.-]`. */
  predicate HostnameChar(c: char) {
    IsAsciiLetter(c) || IsAsciiDigit(c) || c == '.' || c == '-'
  }

  /** Length of the longest prefix of `h` made of class characters: how far `[a-zA-Z0-9.-]+` reaches. */
  function ClassRun(h: string): (n: nat)
    ensures n <= |h|
    ensures forall i :: 0 <= i < n ==> HostnameChar(h[i])
    ensures n < |h| ==> !HostnameChar(h[n])
  {
    if |h| == 0 || !HostnameChar(h[0]) then 0 else 1 + ClassRun(h[1..])
  }

  /**
   * `re.match(r"^[a-zA-Z0-9.-]+$", h)`, as Python's engine decides it: the greedy run of class
   * characters is non-empty and reaches either the end or a single final newline, because `$`
   * also matches just before a newline that ends the string.
   */
  predicate HostnamePatternMatches(h: string)
    ensures HostnamePatternMatches(h) ==> h != "" && HostnameChar(h[0])
    ensures HostnamePatternMatches(h) ==> HostnameChar(h[|h| - 1]) || h[|h| - 1] == '\n'
  {
    var n := ClassRun(h);
    n >= 1 && (n == |h| || (n == |h| - 1 && h[n] == '\n'))
  }

  /** Every character of `s` is in the class. */
  predicate AllClass(s: string) {
    forall i :: 0 <= i < |s| ==> HostnameChar(s[i])
  }

  /**
   * The pattern accepts exactly the non-empty strings of class characters, and those same
   * strings followed by one newline.
   */
  lemma {:induction false} HostnamePatternMeaning(h: string)
    ensures HostnamePatternMatches(h)
            <==> (|h| > 0 && AllClass(h)) || (|h| > 1 && h[|h| - 1] == '\n' && AllClass(h[..|h| - 1]))
  {
    var n := ClassRun(h);
    if |h| > 1 && h[|h| - 1] == '\n' && AllClass(h[..|h| - 1]) {
      assert !HostnameChar(h[|h| - 1]);
      assert forall i :: 0 <= i < |h| - 1 ==> HostnameChar(h[i]) by {
        forall i | 0 <= i < |h| - 1 ensures HostnameChar(h[i]) {
          assert h[..|h| - 1][i] == h[i];
        }
      }
      assert n == |h| - 1;
    }
    if HostnamePatternMatches(h) && n == |h| - 1 {
      assert forall i :: 0 <= i < |h| - 1 ==> h[..|h| - 1][i] == h[i];
    }
  }

  /** The pattern lets a hostname with one trailing newline through. */
  lemma TrailingNewlineAccepted()
    ensures HostnamePatternMatches("db.local\n")
  {
    var h := "db.local\n";
    assert h[..|h| - 1] == "db.local";
    HostnamePatternMeaning(h);
  }

  /** The pattern keeps out the empty name, a second newline and shell punctuation. */
  lemma HostnamePatternRejects()
    ensures !HostnamePatternMatches("")
    ensures !HostnamePatternMatches("db\n\n")
    ensures !HostnamePatternMatches("db;rm")
  {
    HostnamePatternMeaning("");
    var twice := "db\n\n";
    assert !HostnameChar(twice[2]);
    assert twice[..|twice| - 1][2] == '\n';
    HostnamePatternMeaning(twice);
    var semi := "db;rm";
    assert !HostnameChar(semi[2]);
    HostnamePatternMeaning(semi);
  }

  /**
   * The host and port `_ensure_ssh_host_key_trusted` settles on before validating them:
   * the URL's hostname and port (22 when absent or 0, as `parsed.port or 22` gives), then the
   * config's `hostname` and `port` for that hostname when the config file exists. `None` is
   * every path that returns early or raises into the outer `except`.
   */
  function Candidate(dockerHost: string, config: ConfigFile): (c: Option<Target>)
    ensures c.Some? ==> Parse(dockerHost).Ok? && Hostname(Parse(dockerHost).value).Some?
    ensures c.Some? ==> !config.Unreadable?
    ensures Parse(dockerHost).Ok? && Port(Parse(dockerHost).value).Err? ==> c.None?
    ensures Parse(dockerHost).Ok? ==>
              var u := Parse(dockerHost).value;
              Port(u).Ok? && Hostname(u).Some? ==> c == ConfigTarget(Hostname(u).value, UrlPort(Port(u).value), config)
  {
    match Parse(dockerHost)
    case Err(_) => None
    case Ok(u) =>
      match Port(u)
      case Err(_) => None
      case Ok(p) =>
        match Hostname(u)
        case None => None
        case Some(h) => ConfigTarget(h, UrlPort(p), config)
  }

  /** `parsed.port or 22`: the URL's port, with an absent port and port 0 both read as 22. */
  function UrlPort(p: Option<nat>): (n: int)
    ensures n >= 1
    ensures p.None? || p.value == 0 ==> n == SshPort
    ensures p.Some? && p.value != 0 ==> n == p.value
  {
    if p.None? || p.value == 0 then SshPort else p.value
  }

  /** The host and port after the config file's entry for the URL's hostname has had its say. */
  function ConfigTarget(h: string, urlPort: int, config: ConfigFile): (c: Option<Target>)
    ensures config.Unreadable? ==> c.None?
    ensures config.Missing? ==> c == Some(Target(h, urlPort))
    ensures config.Parsed? && Lookup(config.hosts, h).port.None? ==>
              c == Some(Target(Lookup(config.hosts, h).hostname.GetOr(h), urlPort))
    ensures config.Parsed? && Lookup(config.hosts, h).port.Some? ==>
              var n := ParseInt(Lookup(config.hosts, h).port.value);
              c == if n.Some? then Some(Target(Lookup(config.hosts, h).hostname.GetOr(h), n.value)) else None
  {
    match config
    case Unreadable => None
    case Missing => Some(Target(h, urlPort))
    case Parsed(hosts) =>
      var entry := Lookup(hosts, h);
      var host := entry.hostname.GetOr(h);
      if entry.port.None? then Some(Target(host, urlPort))
      else
        match ParseInt(entry.port.value)
        case None => None
        case Some(n) => Some(Target(host, n))
  }

  /** The target `ssh-keyscan` is run for: the candidate, when it passes both guards. */
  function ScanTarget(dockerHost: string, config: ConfigFile): (t: Option<Target>)
    ensures t.Some? <==> (var c := Candidate(dockerHost, config);
                          c.Some? && HostnamePatternMatches(c.value.host) && 1 <= c.value.port <= MaxPort)
    ensures t.Some? ==> t == Candidate(dockerHost, config)
  {
    match Candidate(dockerHost, config)
    case None => None
    case Some(c) =>
      if HostnamePatternMatches(c.host) && 1 <= c.port <= MaxPort then Some(c) else None
  }

  /**
   * The port of the candidate is 22 unless the URL or the config names another: a URL with
   * no port, or with port 0, and a config with no `port` for the host leave it at 22.
   */
  lemma {:induction false} CandidatePortDefault(dockerHost: string, config: ConfigFile)
    requires Parse(dockerHost).Ok?
    requires Port(Parse(dockerHost).value) == Ok(None) || Port(Parse(dockerHost).value) == Ok(Some(0))
    requires Hostname(Parse(dockerHost).value).Some?
    requires config.Missing? || (config.Parsed? && Lookup(config.hosts, Hostname(Parse(dockerHost).value).value).port.None?)
    ensures Candidate(dockerHost, config).Some? && Candidate(dockerHost, config).value.port == 22
  {
  }

  /** A config `port` that `int()` reads overrides the URL's port; the config `hostname` overrides the URL's host. */
  lemma {:induction false} CandidateFromConfig(dockerHost: string, hosts: map<string, HostEntry>)
    requires Parse(dockerHost).Ok? && Port(Parse(dockerHost).value).Ok?
    requires Hostname(Parse(dockerHost).value).Some?
    requires var e := Lookup(hosts, Hostname(Parse(dockerHost).value).value);
             e.port.Some? && ParseInt(e.port.value).Some?
    ensures var h := Hostname(Parse(dockerHost).value).value;
            var e := Lookup(hosts, h);
            Candidate(dockerHost, Parsed(hosts)) == Some(Target(e.hostname.GetOr(h), ParseInt(e.port.value).value))
  {
  }

  /** The text whose presence in `known_hosts` means the host is already trusted. */
  function Marker(t: Target): (m: string)
    requires t.port >= 0
    ensures |m| > |t.host| + 3 && m[..|t.host| + 3] == "[" + t.host + "]:"
    ensures var digits := m[|t.host| + 3..]; IsDecimal(digits) && DecimalValue(digits) == t.port
    ensures var digits := m[|t.host| + 3..]; |digits| > 1 ==> digits[0] != '0'
  {
    var digits := NatToString(t.port);
    DecimalValueOfNatToString(t.port);
    var m := "[" + t.host + "]:" + digits;
    assert m[|t.host| + 3..] == digits;
    m
  }

  /** The scan succeeded with output worth keeping: exit code 0 and output that is not blank. */
  predicate UsefulScan(scan: ScanResult)
    ensures UsefulScan(scan) ==> scan.Exited? && scan.stdout != ""
  {
    scan.Exited? && scan.code == 0 && !IsBlank(scan.stdout)
  }

  /**
   * The append step: `known_hosts` grows by the scan output exactly when the scan was useful
   * and the marker is absent; otherwise it is unchanged. It never loses or rewrites content.
   */
  function AppendHostKey(known: string, t: Target, scan: ScanResult): (k: string)
    requires t.port >= 0
    ensures StartsWith(k, known)
    ensures k != known <==> UsefulScan(scan) && !Contains(known, Marker(t))
    ensures k != known ==> k == known + scan.stdout
  {
    if UsefulScan(scan) && !Contains(known, Marker(t)) then
      assert scan.stdout != "";
      StartsWithAppend(known, scan.stdout);
      known + scan.stdout
    else known
  }

  /** `_ensure_ssh_host_key_trusted(docker_host)` on `known_hosts`: the file after the call. */
  function EnsureHostKeyTrusted(dockerHost: string, config: ConfigFile, scan: ScanResult, known: string): (k: string)
    ensures StartsWith(k, known)
    ensures ScanTarget(dockerHost, config).None? ==> k == known
    ensures k != known ==> ScanTarget(dockerHost, config).Some? && UsefulScan(scan)
                           && !Contains(known, Marker(ScanTarget(dockerHost, config).value))
                           && k == known + scan.stdout
    ensures (ScanTarget(dockerHost, config).Some? && UsefulScan(scan)
             && !Contains(known, Marker(ScanTarget(dockerHost, config).value))) ==> k == known + scan.stdout
  {
    match ScanTarget(dockerHost, config)
    case None => known
    case Some(t) => AppendHostKey(known, t, scan)
  }

  /** Text containing `sub` still contains it with anything put in front. */
  lemma {:induction false} ContainsSuffix(a: string, b: string, sub: string)
    requires Contains(b, sub)
    ensures Contains(a + b, sub)
  {
    var i :| 0 <= i <= |b| && StartsWith(b[i..], sub);
    assert (a + b)[|a| + i..] == b[i..];
  }

  /** No text without `c` contains a string that starts with `c`. */
  lemma {:induction false} NotContainsMissingChar(s: string, c: char, rest: string)
    requires c !in s
    ensures !Contains(s, [c] + rest)
  {
    forall i | 0 <= i <= |s| ensures !StartsWith(s[i..], [c] + rest) {
      if i < |s| {
        assert s[i..][0] == s[i];
      }
    }
  }

  /**
   * When the scan output itself carries the marker, a second run with the same output adds
   * nothing: trusting a host is idempotent.
   */
  lemma {:induction false} AppendIdempotentWhenMarkerWritten(known: string, t: Target, scan: ScanResult)
    requires t.port >= 0
    requires scan.Exited? && Contains(scan.stdout, Marker(t))
    ensures AppendHostKey(AppendHostKey(known, t, scan), t, scan) == AppendHostKey(known, t, scan)
  {
    var once := AppendHostKey(known, t, scan);
    if once != known {
      ContainsSuffix(known, scan.stdout, Marker(t));
    }
  }

  /**
   * Output without `[` never carries a `[host]:port` marker, so when `known_hosts` has no `[`
   * either, every run appends the keys again. This covers port 22 while `known_hosts` holds no
   * `[`: `ssh-keyscan` writes the bare host name there, never `[host]:22`.
   */
  lemma {:induction false} BracketFreeScanAppendsAgain(known: string, t: Target, scan: ScanResult)
    requires t.port >= 0
    requires UsefulScan(scan)
    requires '[' !in known && '[' !in scan.stdout
    ensures AppendHostKey(known, t, scan) == known + scan.stdout
    ensures AppendHostKey(AppendHostKey(known, t, scan), t, scan) == known + scan.stdout + scan.stdout
  {
    var m := Marker(t);
    assert m == ['['] + m[1..];
    NotContainsMissingChar(known, '[', m[1..]);
    var once := known + scan.stdout;
    assert '[' !in once;
    NotContainsMissingChar(once, '[', m[1..]);
  }
}

=== FILE: resolve.dfy ===
/**
 * `resolve_ssh_config`: rewrites `DOCKER_HOST=ssh://alias/...` into the user, host and port
 * that `~/.ssh/config` gives for the alias, keeping every other part of the URL.
 */
module Resolve {

  import opened Base
  import opened Text
  import opened UrlParse
  import opened SshConfig

  /** The port the source leaves unwritten. */
  const DefaultPort := "22"

  /** `user@` when the entry has a non-empty user, else nothing. */
  function UserPart(entry: HostEntry): string {
    if entry.user.Some? && entry.user.value != "" then entry.user.value + "@" else ""
  }

  /** `:port` unless the port is the default one. */
  function PortPart(port: string): string {
    if port != DefaultPort then ":" + port else ""
  }

  /**
   * The netloc written for an alias: the user part, then the entry's hostname (or the alias
   * itself), then the port part for the entry's port (the default when it has none).
   */
  function ResolvedNetloc(entry: HostEntry, alias: string): (n: string)
    ensures entry.user.Some? && entry.user.value != "" ==> StartsWith(n, entry.user.value + "@")
    ensures entry.user.None? || entry.user.value == "" ==> StartsWith(n, entry.hostname.GetOr(alias))
    ensures entry.port.None? || entry.port.value == DefaultPort ==> n == UserPart(entry) + entry.hostname.GetOr(alias)
    ensures entry.port.Some? && entry.port.value != DefaultPort ==>
              n == UserPart(entry) + entry.hostname.GetOr(alias) + ":" + entry.port.value
  {
    UserPart(entry) + entry.hostname.GetOr(alias) + PortPart(entry.port.GetOr(DefaultPort))
  }

  /** The alias a parsed `ssh://` URL names, when it is one `resolve_ssh_config` rewrites. */
  predicate Rewritable(dockerHost: string, config: ConfigFile) {
    && StartsWith(dockerHost, "ssh://")
    && Parse(dockerHost).Ok?
    && '@' !in Parse(dockerHost).value.netloc
    && config.Parsed?
    && Hostname(Parse(dockerHost).value).Some?
  }

  /**
   * `resolve_ssh_config(docker_host)` with the config file as a parameter. `urlparse` runs
   * outside the `try`, so its `ValueError` propagates; every other failure returns the input.
   */
  function ResolveSshConfig(dockerHost: string, config: ConfigFile): (r: Result<string, UrlError>)
    ensures !StartsWith(dockerHost, "ssh://") ==> r == Ok(dockerHost)
    ensures r.Err? <==> StartsWith(dockerHost, "ssh://") && Parse(dockerHost).Err?
    ensures r.Err? ==> r == Err(Parse(dockerHost).error)
    ensures StartsWith(dockerHost, "ssh://") && Parse(dockerHost).Ok? && '@' in Parse(dockerHost).value.netloc
            ==> r == Ok(dockerHost)
    ensures (config.Missing? || config.Unreadable?) && r.Ok? ==> r.value == dockerHost
    ensures StartsWith(dockerHost, "ssh://") && Parse(dockerHost).Ok? && Hostname(Parse(dockerHost).value).None?
            ==> r == Ok(dockerHost)
    ensures r.Ok? && r.value != dockerHost ==> Rewritable(dockerHost, config)
  {
    if dockerHost == "" || !StartsWith(dockerHost, "ssh://") then Ok(dockerHost)
    else
      match Parse(dockerHost)
      case Err(e) => Err(e)
      case Ok(u) =>
        if '@' in u.netloc then Ok(dockerHost)
        else
          match config
          case Missing => Ok(dockerHost)
          case Unreadable => Ok(dockerHost)
          case Parsed(hosts) =>
            match Hostname(u)
            case None => Ok(dockerHost)
            case Some(alias) => Ok(Unparse(u.(netloc := ResolvedNetloc(Lookup(hosts, alias), alias))))
  }

  /** The entry `resolve_ssh_config` applies to a rewritable URL, and the alias it was looked up under. */
  function AliasOf(dockerHost: string, config: ConfigFile): string
    requires Rewritable(dockerHost, config)
  {
    Hostname(Parse(dockerHost).value).value
  }

  function EntryOf(dockerHost: string, config: ConfigFile): HostEntry
    requires Rewritable(dockerHost, config)
  {
    Lookup(config.hosts, AliasOf(dockerHost, config))
  }

  /** Characters a port may not hold without moving a cut of `urlparse`. */
  const PortStops: set<char> := NetlocEnd + Unsafe + {'@', '[', ']'}

  /** Characters a user or host may not hold without moving a cut of `urlparse`. */
  const HostStops: set<char> := PortStops + {':'}

  /** The user, host and port parts of an entry are plain text; the host is not empty. */
  predicate PlainEntry(entry: HostEntry, alias: string) {
    && Avoids(entry.hostname.GetOr(alias), HostStops)
    && entry.hostname.GetOr(alias) != ""
    && (entry.user.Some? ==> Avoids(entry.user.value, HostStops))
    && (entry.port.Some? ==> Avoids(entry.port.value, PortStops))
  }

  lemma {:induction false} DefaultPortPlain()
    ensures Avoids(DefaultPort, PortStops)
  {
    assert forall i :: 0 <= i < |DefaultPort| ==> DefaultPort[i] == '2';
  }

  /** The host and port part of the resolved netloc: the text after any `@`. */
  lemma {:induction false} HostPortAvoids(entry: HostEntry, alias: string)
    requires PlainEntry(entry, alias)
    ensures Avoids(entry.hostname.GetOr(alias) + PortPart(entry.port.GetOr(DefaultPort)), PortStops)
  {
    var host := entry.hostname.GetOr(alias);
    var port := entry.port.GetOr(DefaultPort);
    AvoidsSubset(host, HostStops, PortStops);
    if port != DefaultPort {
      assert Avoids(port, PortStops);
      assert Avoids(":", PortStops);
      AvoidsJoin(":", port, PortStops);
    } else {
      assert PortPart(port) == "";
    }
    AvoidsJoin(host, PortPart(port), PortStops);
  }

  /** A plain entry gives a clean netloc, one without any bracket. */
  lemma {:induction false} ResolvedNetlocClean(entry: HostEntry, alias: string)
    requires PlainEntry(entry, alias)
    ensures var n := ResolvedNetloc(entry, alias);
            CleanNetloc(n) && '[' !in n && ']' !in n
  {
    var rest := entry.hostname.GetOr(alias) + PortPart(entry.port.GetOr(DefaultPort));
    HostPortAvoids(entry, alias);
    var stops := NetlocEnd + Unsafe + {'[', ']'};
    AvoidsSubset(rest, PortStops, stops);
    if UserPart(entry) != "" {
      AvoidsSubset(entry.user.value, HostStops, stops);
      assert Avoids("@", stops);
      AvoidsJoin(entry.user.value, "@", stops);
    }
    AvoidsJoin(UserPart(entry), rest, stops);
    assert ResolvedNetloc(entry, alias) == UserPart(entry) + rest;
    var n := ResolvedNetloc(entry, alias);
    assert '[' !in n by { assert Avoids(n, stops); }
    assert ']' !in n by { assert Avoids(n, stops); }
    assert Avoids(n, NetlocEnd + Unsafe) by { AvoidsSubset(n, stops, NetlocEnd + Unsafe); }
  }

  /** `_hostinfo` of the text after `@`: the host, and the port part's port. */
  lemma {:induction false} HostInfoOfHostPort(host: string, port: string)
    requires Avoids(host, HostStops) && Avoids(port, PortStops)
    ensures Partition(host + PortPart(port), '[').found == false
    ensures Partition(host + PortPart(port), ':') == Parts(host, port != DefaultPort, if port != DefaultPort then port else "")
  {
    var hostinfo := host + PortPart(port);
    AvoidsSubset(host, HostStops, PortStops);
    if port != DefaultPort {
      assert Avoids(":", PortStops);
      AvoidsJoin(":", port, PortStops);
    }
    AvoidsJoin(host, PortPart(port), PortStops);
    assert '[' !in hostinfo by { assert Avoids(hostinfo, PortStops); }
    assert ':' !in host by { assert Avoids(host, HostStops); }
    if port != DefaultPort {
      assert hostinfo == host + [':'] + port;
      PartitionAt(host, port, ':');
    } else {
      assert hostinfo == host;
      PartitionAbsent(host, ':');
    }
  }

  /**
   * Reading the resolved netloc back: it carries `@` exactly when the entry has a non-empty
   * user, its host is the entry's hostname (the alias when there is none), and its port is the
   * entry's port unless that is the default `"22"`, in which case there is none.
   */
  lemma {:induction false} ResolvedNetlocParts(entry: HostEntry, alias: string)
    requires PlainEntry(entry, alias)
    ensures var n := ResolvedNetloc(entry, alias);
            var port := entry.port.GetOr(DefaultPort);
            && ('@' in n <==> UserPart(entry) != "")
            && SplitHostInfo(n) == HostInfo(entry.hostname.GetOr(alias), if port != DefaultPort then port else "")
  {
    var host := entry.hostname.GetOr(alias);
    var port := entry.port.GetOr(DefaultPort);
    var hostinfo := host + PortPart(port);
    var n := ResolvedNetloc(entry, alias);
    assert n == UserPart(entry) + hostinfo;
    HostPortAvoids(entry, alias);
    assert '@' !in hostinfo by { assert Avoids(hostinfo, PortStops); }
    if UserPart(entry) != "" {
      var user := entry.user.value;
      assert n == user + ['@'] + hostinfo;
      RPartitionAt(user, hostinfo, '@');
      assert n[|user|] == '@';
    } else {
      assert n == hostinfo;
    }
    assert RPartition(n, '@').after == hostinfo;
    assert Avoids(port, PortStops) by {
      if entry.port.None? {
        DefaultPortPlain();
      }
    }
    assert Avoids(host, HostStops);
    HostInfoOfHostPort(host, port);
  }

  /** Reverse-partitioning `a + [c] + b` where `b` has no `c` splits exactly at the added `c`. */
  lemma {:induction false} RPartitionAt(a: string, b: string, c: char)
    requires c !in b
    ensures RPartition(a + [c] + b, c) == Parts(a, true, b)
  {
    var s := a + [c] + b;
    assert LastIndexOf(s, c) == |a| by {
      assert forall k :: |a| < k < |s| ==> s[k] == b[k - |a| - 1];
      assert s[|a|] == c;
    }
    assert s[..|a|] == a;
    assert s[|a| + 1..] == b;
  }

  /** A rewritable URL is rewritten to the input's record with the resolved netloc. */
  lemma {:induction false} ResolveRewrites(dockerHost: string, config: ConfigFile)
    requires Rewritable(dockerHost, config)
    ensures ResolveSshConfig(dockerHost, config)
            == Ok(Unparse(Parse(dockerHost).value.(netloc := ResolvedNetloc(EntryOf(dockerHost, config), AliasOf(dockerHost, config)))))
  {
    var u := Parse(dockerHost).value;
    assert Parse(dockerHost) == Ok(u);
    assert dockerHost != "";
    var alias := Hostname(u).value;
    assert Hostname(u) == Some(alias);
    assert '@' !in u.netloc;
  }

  /**
   * When the URL is rewritten to a clean netloc, parsing the result gives the input's record
   * with only the netloc replaced: scheme, path, params, query and fragment are kept.
   */
  lemma {:induction false} ResolveKeepsOtherFields(dockerHost: string, config: ConfigFile)
    requires Rewritable(dockerHost, config)
    requires CleanNetloc(ResolvedNetloc(EntryOf(dockerHost, config), AliasOf(dockerHost, config)))
    ensures var r := ResolveSshConfig(dockerHost, config);
            var n := ResolvedNetloc(EntryOf(dockerHost, config), AliasOf(dockerHost, config));
            r.Ok? && Parse(r.value) == Ok(Parse(dockerHost).value.(netloc := n))
  {
    var u := Parse(dockerHost).value;
    var entry := EntryOf(dockerHost, config);
    var alias := AliasOf(dockerHost, config);
    var n := ResolvedNetloc(entry, alias);
    ResolveRewrites(dockerHost, config);
    ParseSshShape(dockerHost, n);
    ParseUnparse(u.(netloc := n));
  }

  /**
   * The rewritten URL names the configured host and the configured port: a port written in
   * the input is never carried over, and the default port leaves no port at all.
   */
  lemma {:induction false} ResolvedHostAndPort(dockerHost: string, config: ConfigFile)
    requires Rewritable(dockerHost, config)
    requires PlainEntry(EntryOf(dockerHost, config), AliasOf(dockerHost, config))
    ensures var r := ResolveSshConfig(dockerHost, config);
            var entry := EntryOf(dockerHost, config);
            var port := entry.port.GetOr(DefaultPort);
            && r.Ok? && Parse(r.value).Ok?
            && SplitHostInfo(Parse(r.value).value.netloc).host == entry.hostname.GetOr(AliasOf(dockerHost, config))
            && SplitHostInfo(Parse(r.value).value.netloc).port == (if port != DefaultPort then port else "")
  {
    ResolvedNetlocClean(EntryOf(dockerHost, config), AliasOf(dockerHost, config));
    ResolveKeepsOtherFields(dockerHost, config);
    ResolvedNetlocParts(EntryOf(dockerHost, config), AliasOf(dockerHost, config));
  }

  /** A URL rewritten to a clean netloc still starts with `ssh://`. */
  lemma {:induction false} ResolvedIsSsh(dockerHost: string, config: ConfigFile)
    requires Rewritable(dockerHost, config)
    requires CleanNetloc(ResolvedNetloc(EntryOf(dockerHost, config), AliasOf(dockerHost, config)))
    ensures ResolveSshConfig(dockerHost, config).Ok?
    ensures StartsWith(ResolveSshConfig(dockerHost, config).value, "ssh://")
  {
    var u := Parse(dockerHost).value;
    var n := ResolvedNetloc(EntryOf(dockerHost, config), AliasOf(dockerHost, config));
    ResolveRewrites(dockerHost, config);
    ParseSshShape(dockerHost, n);
    UnparseSshPrefix(u.(netloc := n));
  }

  /**
   * Resolving twice changes nothing more when the entry supplies a user: the first result
   * carries `user@`, which the second call leaves alone.
   */
  lemma {:induction false} ResolveWithUserIsIdempotent(dockerHost: string, config: ConfigFile)
    requires Rewritable(dockerHost, config)
    requires CleanNetloc(ResolvedNetloc(EntryOf(dockerHost, config), AliasOf(dockerHost, config)))
    requires UserPart(EntryOf(dockerHost, config)) != ""
    ensures var r := ResolveSshConfig(dockerHost, config);
            r.Ok? && ResolveSshConfig(r.value, config) == r
  {
    var n := ResolvedNetloc(EntryOf(dockerHost, config), AliasOf(dockerHost, config));
    ResolvedIsSsh(dockerHost, config);
    ResolveKeepsOtherFields(dockerHost, config);
    UserNetlocHasAt(EntryOf(dockerHost, config), AliasOf(dockerHost, config));
    var r := ResolveSshConfig(dockerHost, config).value;
    assert Parse(r).Ok? && '@' in Parse(r).value.netloc;
  }

  /** A netloc built with a user holds the `@` after it. */
  lemma {:induction false} UserNetlocHasAt(entry: HostEntry, alias: string)
    requires UserPart(entry) != ""
    ensures '@' in ResolvedNetloc(entry, alias)
  {
    assert ResolvedNetloc(entry, alias)[|entry.user.value|] == '@';
  }
}

=== FILE: ssh_config.dfy ===
/**
 * The user's `~/.ssh/config` as the bootstrap sees it. Parsing the file (and its `Host`
 * patterns and token expansion) belongs to paramiko's `SSHConfig`; the model keeps only the
 * outcome: the file is missing, it fails to parse, or it yields an entry per alias.
 */
module SshConfig {

  import opened Base

  /** The `hostname`, `user` and `port` options a lookup reports; each may be absent. */
  datatype HostEntry = HostEntry(hostname: Option<string>, user: Option<string>, port: Option<string>)

  /** `~/.ssh/config`: missing, present but raising while parsed, or parsed. */
  datatype ConfigFile =
    | Missing
    | Unreadable
    | Parsed(hosts: map<string, HostEntry>)

  /** The entry with no options, which is what a lookup of an unknown alias reports. */
  const NoOptions := HostEntry(None, None, None)

  /** `ssh_config.lookup(alias)`: the alias's entry, or no options at all for an unknown alias. */
  function Lookup(hosts: map<string, HostEntry>, alias: string): HostEntry {
    if alias in hosts then hosts[alias] else NoOptions
  }
}

=== FILE: summaries.dfy ===
/**
 * The compact records the list tools return for each raw engine record, and the split of
 * container logs into lines.
 */
module Summaries {

  import opened Text
  import opened DockerEngine

  /** How many leading characters of an engine id a summary keeps. */
  const IdLength: nat := 12

  /** The digest algorithm prefix image ids carry. */
  const DigestPrefix := "sha256:"

  /** `id[:12]`: the first twelve characters, or the whole id when it is shorter. */
  function ShortId(id: string): (r: string)
    ensures |r| == if |id| < IdLength then |id| else IdLength
    ensures StartsWith(id, r)
  {
    if |id| <= IdLength then id else id[..IdLength]
  }

  /** The length and prefix facts pin the short id down: no other string has both. */
  lemma {:induction false} ShortIdUnique(id: string, r: string)
    requires |r| == if |id| < IdLength then |id| else IdLength
    requires StartsWith(id, r)
    ensures r == ShortId(id)
  {
    assert r == id[..|r|];
  }

  /** Shortening twice changes nothing more. */
  lemma {:induction false} ShortIdIdempotent(id: string)
    ensures ShortId(ShortId(id)) == ShortId(id)
  {
  }

  /** Only the first twelve characters decide the short id. */
  lemma {:induction false} ShortIdIgnoresTail(head: string, tail: string)
    requires |head| >= IdLength
    ensures ShortId(head + tail) == ShortId(head)
  {
    assert (head + tail)[..IdLength] == head[..IdLength];
  }

  /** An image id with a leading `sha256:` removed; any other id as it is. */
  function StripDigestPrefix(id: string): (r: string)
    ensures StartsWith(id, DigestPrefix) ==> id == DigestPrefix + r
    ensures !StartsWith(id, DigestPrefix) ==> r == id
  {
    if StartsWith(id, DigestPrefix) then id[|DigestPrefix|..] else id
  }

  /** The `id` of an image summary: twelve characters of the digest, after its `sha256:` prefix. */
  function ImageShortId(id: string): (r: string)
    ensures |r| <= IdLength
    ensures StartsWith(id, DigestPrefix) ==> StartsWith(id, DigestPrefix + r)
    ensures !StartsWith(id, DigestPrefix) ==> StartsWith(id, r)
    ensures |id| >= |DigestPrefix| + IdLength ==> |r| == IdLength
  {
    var digest := StripDigestPrefix(id);
    var r := ShortId(digest);
    if StartsWith(id, DigestPrefix) then
      assert id == DigestPrefix + digest;
      assert id[..|DigestPrefix| + |r|] == DigestPrefix + r;
      r
    else
      r
  }

  /** The image short id of `sha256:` followed by a digest is the short id of the digest itself. */
  lemma {:induction false} ImageShortIdOfDigest(digest: string)
    ensures ImageShortId(DigestPrefix + digest) == ShortId(digest)
  {
    var id := DigestPrefix + digest;
    assert StartsWith(id, DigestPrefix);
    assert id[|DigestPrefix|..] == digest;
  }

  /**
   * The `names` of a container summary: the first of the engine's names with one leading `/`
   * removed; the empty string when the engine reports no names.
   */
  function ContainerName(names: seq<string>): (r: string)
    ensures |names| == 0 ==> r == ""
    ensures |names| > 0 ==> names[0] == if StartsWith(names[0], "/") then "/" + r else r
  {
    if |names| == 0 then ""
    else if StartsWith(names[0], "/") then names[0][1..]
    else names[0]
  }

  /** The fields of a container listing entry the container summary keeps. */
  datatype ContainerSummary = ContainerSummary(
    id: string,
    names: string,
    image: string,
    command: Json,
    created: Json,
    status: string,
    ports: Json)

  /** The fields of an image listing entry the image summary keeps. */
  datatype ImageSummary = ImageSummary(
    id: string,
    repoTags: seq<string>,
    created: Json,
    size: int,
    virtualSize: Json,
    labels: Json)

  /** The fields of a network listing entry the network summary keeps. */
  datatype NetworkSummary = NetworkSummary(
    id: string,
    name: string,
    driver: string,
    scope: Json,
    created: Json,
    labels: Json,
    options: Json,
    ipam: Json)

  /** The fields of a volume listing entry the volume summary keeps: all of them. */
  datatype VolumeSummary = VolumeSummary(
    name: string,
    driver: string,
    mountpoint: Json,
    createdAt: Json,
    labels: Json,
    options: Json,
    scope: string)

  function SummarizeContainer(c: RawContainer): ContainerSummary {
    ContainerSummary(ShortId(c.id), ContainerName(c.names), c.image, c.command, c.created, c.status, c.ports)
  }

  function SummarizeImage(i: RawImage): ImageSummary {
    ImageSummary(ImageShortId(i.id), i.repoTags, i.created, i.size, i.virtualSize, i.labels)
  }

  function SummarizeNetwork(n: RawNetwork): NetworkSummary {
    NetworkSummary(ShortId(n.id), n.name, n.driver, n.scope, n.created, n.labels, n.options, n.ipam)
  }

  function SummarizeVolume(v: RawVolume): VolumeSummary {
    VolumeSummary(v.name, v.driver, v.mountpoint, v.createdAt, v.labels, v.options, v.scope)
  }

  /** One container summary per raw record, in the engine's order. */
  function SummarizeContainers(raw: seq<RawContainer>): (r: seq<ContainerSummary>)
    ensures |r| == |raw|
    ensures forall i :: 0 <= i < |raw| ==>
              && r[i].id == ShortId(raw[i].id)
              && r[i].names == ContainerName(raw[i].names)
              && r[i].image == raw[i].image && r[i].status == raw[i].status
              && r[i].command == raw[i].command && r[i].created == raw[i].created && r[i].ports == raw[i].ports
  {
    if |raw| == 0 then [] else [SummarizeContainer(raw[0])] + SummarizeContainers(raw[1..])
  }

  /** One image summary per raw record, in the engine's order. */
  function SummarizeImages(raw: seq<RawImage>): (r: seq<ImageSummary>)
    ensures |r| == |raw|
    ensures forall i :: 0 <= i < |raw| ==>
              && r[i].id == ImageShortId(raw[i].id)
              && r[i].repoTags == raw[i].repoTags && r[i].size == raw[i].size
              && r[i].created == raw[i].created && r[i].virtualSize == raw[i].virtualSize
              && r[i].labels == raw[i].labels
  {
    if |raw| == 0 then [] else [SummarizeImage(raw[0])] + SummarizeImages(raw[1..])
  }

  /** One network summary per raw record, in the engine's order. */
  function SummarizeNetworks(raw: seq<RawNetwork>): (r: seq<NetworkSummary>)
    ensures |r| == |raw|
    ensures forall i :: 0 <= i < |raw| ==>
              && r[i].id == ShortId(raw[i].id)
              && r[i].name == raw[i].name && r[i].driver == raw[i].driver
              && r[i].scope == raw[i].scope && r[i].created == raw[i].created
              && r[i].labels == raw[i].labels && r[i].options == raw[i].options && r[i].ipam == raw[i].ipam
  {
    if |raw| == 0 then [] else [SummarizeNetwork(raw[0])] + SummarizeNetworks(raw[1..])
  }

  /** One volume summary per raw record, in the engine's order, each keeping every field. */
  function SummarizeVolumes(raw: seq<RawVolume>): (r: seq<VolumeSummary>)
    ensures |r| == |raw|
    ensures forall i :: 0 <= i < |raw| ==>
              && r[i].name == raw[i].name && r[i].driver == raw[i].driver && r[i].scope == raw[i].scope
              && r[i].mountpoint == raw[i].mountpoint && r[i].createdAt == raw[i].createdAt
              && r[i].labels == raw[i].labels && r[i].options == raw[i].options
  {
    if |raw| == 0 then [] else [SummarizeVolume(raw[0])] + SummarizeVolumes(raw[1..])
  }

  /**
   * `logs.decode().split("\n")`: the lines of the log text, which joined with newlines give
   * the text back; a text ending in a newline ends with an empty line.
   */
  function LogLines(text: string): (lines: seq<string>)
    ensures Join(lines, '\n') == text
    ensures forall i :: 0 <= i < |lines| ==> '\n' !in lines[i]
    ensures |lines| == Count(text, '\n') + 1
    ensures |text| > 0 && text[|text| - 1] == '\n' ==> lines[|lines| - 1] == ""
  {
    JoinSplit(text, '\n');
    SplitLength(text, '\n');
    TrailingNewlineLine(text);
    Split(text, '\n')
  }

  /** A text ending in a newline splits into pieces whose last one is empty. */
  lemma {:induction false} TrailingNewlineLine(text: string)
    ensures |text| > 0 && text[|text| - 1] == '\n' ==> Split(text, '\n')[|Split(text, '\n')| - 1] == ""
  {
    if |text| > 0 && text[|text| - 1] == '\n' {
      SplitTrailingSeparator(text, '\n');
    }
  }

  /** The lines are the only newline-free pieces whose join is the text. */
  lemma {:induction false} LogLinesUnique(text: string, pieces: seq<string>)
    requires |pieces| >= 1
    requires forall i :: 0 <= i < |pieces| ==> '\n' !in pieces[i]
    requires Join(pieces, '\n') == text
    ensures pieces == LogLines(text)
  {
    SplitJoin(pieces, '\n');
  }
}

=== FILE: text.dfy ===
/**
 * String operations the source borrows from Python's `str`: prefix and substring tests,
 * `find`/`partition`/`rpartition` on one character, ASCII lower-casing, `strip()` blankness,
 * decimal conversion both ways, and `split` on one separator with its inverse `join`.
 */
module Text {

  import opened Base

  /** `s.startswith(prefix)` */
  predicate StartsWith(s: string, prefix: string) {
    prefix <= s
  }

  /** A string starts with any of its prefixes. */
  lemma {:induction false} StartsWithAppend(prefix: string, rest: string)
    ensures StartsWith(prefix + rest, prefix)
  {
  }

  /** `sub in s` for strings: `sub` occurs as a contiguous slice of `s`. */
  predicate Contains(s: string, sub: string) {
    exists i :: 0 <= i <= |s| && StartsWith(s[i..], sub)
  }

  /** Index of the first `c` in `s`, or `|s|` when there is none. */
  function IndexOf(s: string, c: char): (i: nat)
    ensures i <= |s|
    ensures forall k :: 0 <= k < i ==> s[k] != c
    ensures i < |s| ==> s[i] == c
    ensures i == |s| <==> c !in s
  {
    if |s| == 0 then 0
    else if s[0] == c then 0
    else 1 + IndexOf(s[1..], c)
  }

  /** Index of the last `c` in `s`, or -1 when there is none. */
  function LastIndexOf(s: string, c: char): (i: int)
    ensures -1 <= i < |s|
    ensures forall k :: i < k < |s| ==> s[k] != c
    ensures 0 <= i ==> s[i] == c
    ensures i == -1 <==> c !in s
  {
    if |s| == 0 then -1
    else if s[|s| - 1] == c then |s| - 1
    else LastIndexOf(s[..|s| - 1], c)
  }

  /** Index of the first character of `s` that belongs to `cs`, or `|s|`. */
  function IndexOfAny(s: string, cs: set<char>): (i: nat)
    ensures i <= |s|
    ensures forall k :: 0 <= k < i ==> s[k] !in cs
    ensures i < |s| ==> s[i] in cs
  {
    if |s| == 0 then 0
    else if s[0] in cs then 0
    else 1 + IndexOfAny(s[1..], cs)
  }

  /** The three parts of Python's `str.partition(sep)` / `str.rpartition(sep)`. */
  datatype Parts = Parts(before: string, found: bool, after: string)

  /** `s.partition(c)`: split at the first `c`; without one, everything is `before`. */
  function Partition(s: string, c: char): (p: Parts)
    ensures p.found <==> c in s
    ensures c !in p.before
    ensures s == if p.found then p.before + [c] + p.after else p.before
    ensures !p.found ==> p.after == ""
  {
    var i := IndexOf(s, c);
    if i == |s| then Parts(s, false, "")
    else
      assert s == s[..i] + [c] + s[i + 1..];
      Parts(s[..i], true, s[i + 1..])
  }

  /** `s.rpartition(c)`: split at the last `c`; without one, everything is `after`. */
  function RPartition(s: string, c: char): (p: Parts)
    ensures p.found <==> c in s
    ensures c !in p.after
    ensures s == if p.found then p.before + [c] + p.after else p.after
    ensures !p.found ==> p.before == ""
  {
    var i := LastIndexOf(s, c);
    if i < 0 then Parts("", false, s)
    else
      assert s == s[..i] + [c] + s[i + 1..];
      Parts(s[..i], true, s[i + 1..])
  }

  predicate IsAsciiUpper(c: char) { 'A' <= c <= 'Z' }

  predicate IsAsciiLetter(c: char) { 'A' <= c <= 'Z' || 'a' <= c <= 'z' }

  predicate IsAsciiDigit(c: char) { '0' <= c <= '9' }

  /** ASCII lower-casing of one character. */
  function LowerChar(c: char): (d: char)
    ensures !IsAsciiUpper(d)
    ensures !IsAsciiUpper(c) ==> d == c
    ensures IsAsciiUpper(c) ==> d as int - c as int == 32
  {
    if IsAsciiUpper(c) then (c as int + 32) as char else c
  }

  /** `s.lower()` restricted to the ASCII letters. */
  function Lower(s: string): (r: string)
    ensures |r| == |s|
    ensures forall i :: 0 <= i < |s| ==> r[i] == LowerChar(s[i])
  {
    seq(|s|, i requires 0 <= i < |s| => LowerChar(s[i]))
  }

  /** `s.isdigit() and s.isascii()` together with non-emptiness. */
  predicate IsDecimal(s: string) {
    |s| > 0 && forall i :: 0 <= i < |s| ==> IsAsciiDigit(s[i])
  }

  /** The value of a string of ASCII digits, most significant first. */
  function DecimalValue(s: string): nat
    requires forall i :: 0 <= i < |s| ==> IsAsciiDigit(s[i])
  {
    if |s| == 0 then 0
    else 10 * DecimalValue(s[..|s| - 1]) + DigitValue(s[|s| - 1])
  }

  function DigitValue(c: char): (d: nat)
    requires IsAsciiDigit(c)
    ensures d < 10
  {
    c as int - '0' as int
  }

  /** `str(n)` for a natural number: decimal digits without leading zeros. */
  function NatToString(n: nat): (s: string)
    ensures IsDecimal(s)
    ensures |s| > 1 ==> s[0] != '0'
  {
    var d := ['0' + (n % 10) as char];
    if n < 10 then d else NatToString(n / 10) + d
  }

  /** Reading back what `str(n)` wrote gives `n`. */
  lemma {:induction false} DecimalValueOfNatToString(n: nat)
    ensures DecimalValue(NatToString(n)) == n
  {
    var s := NatToString(n);
    if n >= 10 {
      DecimalValueOfNatToString(n / 10);
      assert s[..|s| - 1] == NatToString(n / 10);
    }
  }

  /** `int(s)` on a string of an optional sign followed by ASCII digits; anything else fails. */
  function ParseInt(s: string): (r: Option<int>)
    ensures IsDecimal(s) ==> r == Some(DecimalValue(s))
    ensures |s| > 0 && s[0] == '+' && IsDecimal(s[1..]) ==> r == Some(DecimalValue(s[1..]))
    ensures |s| > 0 && s[0] == '-' && IsDecimal(s[1..]) ==> r == Some(0 - DecimalValue(s[1..]) as int)
    ensures r.Some? ==> IsDecimal(s) || (|s| > 1 && (s[0] == '+' || s[0] == '-') && IsDecimal(s[1..]))
  {
    if IsDecimal(s) then Some(DecimalValue(s))
    else if |s| > 1 && s[0] == '+' && IsDecimal(s[1..]) then Some(DecimalValue(s[1..]))
    else if |s| > 1 && s[0] == '-' && IsDecimal(s[1..]) then Some(0 - DecimalValue(s[1..]) as int)
    else None
  }

  /** The characters Python's `str.isspace()` accepts, which `str.strip()` removes. */
  predicate IsPyWhitespace(c: char) {
    var n := c as int;
    || 0x09 <= n <= 0x0D || 0x1C <= n <= 0x20 || n == 0x85 || n == 0xA0 || n == 0x1680
    || 0x2000 <= n <= 0x200A || n == 0x2028 || n == 0x2029 || n == 0x202F || n == 0x205F
    || n == 0x3000
  }

  /** `not s.strip()`: the string is empty or consists of whitespace only. */
  predicate IsBlank(s: string) {
    forall i :: 0 <= i < |s| ==> IsPyWhitespace(s[i])
  }

  /** `s` with every character of `cs` deleted (repeated `s.replace(c, "")`). */
  function RemoveAll(s: string, cs: set<char>): (r: string)
    ensures |r| <= |s|
    ensures forall i :: 0 <= i < |r| ==> r[i] !in cs
    ensures (forall i :: 0 <= i < |s| ==> s[i] !in cs) ==> r == s
  {
    if |s| == 0 then ""
    else if s[0] in cs then RemoveAll(s[1..], cs)
    else [s[0]] + RemoveAll(s[1..], cs)
  }

  /** Deleting characters distributes over concatenation. */
  lemma {:induction false} RemoveAllAppend(a: string, b: string, cs: set<char>)
    ensures RemoveAll(a + b, cs) == RemoveAll(a, cs) + RemoveAll(b, cs)
  {
    if |a| > 0 {
      assert (a + b)[1..] == a[1..] + b;
      RemoveAllAppend(a[1..], b, cs);
    } else {
      assert a + b == b;
    }
  }

  /** `s.split(sep)`: the pieces between separators, in order; never empty. */
  function Split(s: string, sep: char): (parts: seq<string>)
    ensures |parts| >= 1
    ensures forall i :: 0 <= i < |parts| ==> sep !in parts[i]
    decreases |s|
  {
    var i := IndexOf(s, sep);
    if i == |s| then [s] else [s[..i]] + Split(s[i + 1..], sep)
  }

  /** `sep.join(parts)`. */
  function Join(parts: seq<string>, sep: char): string {
    if |parts| == 0 then ""
    else if |parts| == 1 then parts[0]
    else parts[0] + [sep] + Join(parts[1..], sep)
  }

  /** Number of occurrences of `c` in `s`. */
  function Count(s: string, c: char): nat {
    if |s| == 0 then 0
    else (if s[0] == c then 1 else 0) + Count(s[1..], c)
  }

  lemma {:induction false} CountAppend(a: string, b: string, c: char)
    ensures Count(a + b, c) == Count(a, c) + Count(b, c)
  {
    if |a| > 0 {
      assert (a + b)[1..] == a[1..] + b;
      CountAppend(a[1..], b, c);
    } else {
      assert a + b == b;
    }
  }

  lemma {:induction false} CountAbsent(s: string, c: char)
    requires c !in s
    ensures Count(s, c) == 0
  {
    if |s| > 0 {
      CountAbsent(s[1..], c);
    }
  }

  /** Joining the pieces of a split with the same separator gives the string back. */
  lemma {:induction false} JoinSplit(s: string, sep: char)
    ensures Join(Split(s, sep), sep) == s
    decreases |s|
  {
    var i := IndexOf(s, sep);
    if i < |s| {
      var rest := s[i + 1..];
      var tail := Split(rest, sep);
      JoinSplit(rest, sep);
      var parts := [s[..i]] + tail;
      assert Split(s, sep) == parts;
      assert parts[0] == s[..i] && parts[1..] == tail;
      assert Join(parts, sep) == s[..i] + [sep] + Join(tail, sep);
      assert s == s[..i] + [sep] + rest;
    }
  }

  /** Splitting a join of separator-free pieces gives the pieces back. */
  lemma {:induction false} SplitJoin(parts: seq<string>, sep: char)
    requires |parts| >= 1
    requires forall i :: 0 <= i < |parts| ==> sep !in parts[i]
    ensures Split(Join(parts, sep), sep) == parts
  {
    var s := Join(parts, sep);
    if |parts| == 1 {
      assert IndexOf(s, sep) == |s|;
    } else {
      var head := parts[0];
      var tail := Join(parts[1..], sep);
      assert s == head + [sep] + tail;
      assert IndexOf(s, sep) == |head| by {
        assert forall k :: 0 <= k < |head| ==> s[k] == head[k];
        assert s[|head|] == sep;
      }
      assert s[..|head|] == head;
      assert s[|head| + 1..] == tail;
      SplitJoin(parts[1..], sep);
    }
  }

  /** A split yields one more piece than there are separators. */
  lemma {:induction false} SplitLength(s: string, sep: char)
    ensures |Split(s, sep)| == Count(s, sep) + 1
    decreases |s|
  {
    var i := IndexOf(s, sep);
    if i == |s| {
      CountAbsent(s, sep);
    } else {
      var rest := s[i + 1..];
      SplitLength(rest, sep);
      assert s == s[..i] + ([sep] + rest);
      CountAppend(s[..i], [sep] + rest, sep);
      CountAbsent(s[..i], sep);
      assert ([sep] + rest)[1..] == rest;
    }
  }

  /** A string that ends in the separator splits into pieces whose last one is empty. */
  lemma {:induction false} SplitTrailingSeparator(s: string, sep: char)
    requires |s| > 0 && s[|s| - 1] == sep
    ensures Split(s, sep)[|Split(s, sep)| - 1] == ""
    decreases |s|
  {
    var i := IndexOf(s, sep);
    var rest := s[i + 1..];
    if |rest| > 0 {
      assert rest[|rest| - 1] == sep;
      SplitTrailingSeparator(rest, sep);
    } else {
      assert Split(rest, sep) == [""];
    }
  }
}

=== FILE: url.dfy ===
/**
 * The part of Python's `urllib.parse` the SSH bootstrap relies on: `urlparse` into a
 * six-field record, `urlunparse` back to a string, and the `hostname` and `port`
 * properties of the parsed record. Semantics follow CPython 3.12.
 */
module UrlParse {

  import opened Base
  import opened Text

  /** The six fields of a `ParseResult`. */
  datatype Url = Url(
    scheme: string,
    netloc: string,
    path: string,
    params: string,
    query: string,
    fragment: string)

  /** The `ValueError`s that `urlparse` and the `port` property raise. */
  datatype UrlError =
    | InvalidIPv6(netloc: string)
    | PortNotInteger(text: string)
    | PortOutOfRange(value: nat)

  /** Schemes whose last path segment may carry `;params` (`uses_params`). */
  const UsesParams: set<string> :=
    {"", "ftp", "hdl", "prospero", "http", "imap", "https", "shttp", "rtsp", "rtsps",
     "rtspu", "sip", "sips", "mms", "sftp", "tel"}

  /** Schemes that are written with `//` even when the netloc is empty (`uses_netloc`). */
  const UsesNetloc: set<string> :=
    {"", "ftp", "http", "gopher", "nntp", "telnet", "imap", "wais", "file", "mms", "https",
     "shttp", "snews", "prospero", "rtsp", "rtsps", "rtspu", "rsync", "svn", "svn+ssh",
     "sftp", "nfs", "git", "git+ssh", "ws", "wss", "itms-services"}

  /** Characters deleted from the whole URL before splitting (`_UNSAFE_URL_BYTES_TO_REMOVE`). */
  const Unsafe: set<char> := {'\t', '\r', '\n'}

  /** Characters that end the netloc. */
  const NetlocEnd: set<char> := {'/', '?', '#'}

  predicate IsSchemeChar(c: char) {
    IsAsciiLetter(c) || IsAsciiDigit(c) || c == '+' || c == '-' || c == '.'
  }

  /** A C0 control character or space, stripped from the front of the URL. */
  predicate IsC0OrSpace(c: char) {
    c as int <= 0x20
  }

  /** `s` has no character of `cs`. */
  predicate Avoids(s: string, cs: set<char>) {
    forall i :: 0 <= i < |s| ==> s[i] !in cs
  }

  /** `url.lstrip(_WHATWG_C0_CONTROL_OR_SPACE)` */
  function LStripC0(s: string): (r: string)
    ensures |r| <= |s| && r == s[|s| - |r|..]
    ensures |r| > 0 ==> !IsC0OrSpace(r[0])
    ensures (|s| > 0 && !IsC0OrSpace(s[0])) ==> r == s
  {
    if |s| > 0 && IsC0OrSpace(s[0]) then LStripC0(s[1..]) else s
  }

  /** The scheme prefix of a URL, lower-cased, and the text after its colon. */
  datatype SchemeSplit = SchemeSplit(scheme: string, rest: string)

  /** Recognises `scheme:` when the text before the first colon is a letter followed by scheme characters. */
  function SplitScheme(url: string): (r: SchemeSplit)
    ensures r.scheme == "" ==> r.rest == url
    ensures r.scheme != "" ==> |r.scheme| < |url| && url == url[..|r.scheme|] + ":" + r.rest
                               && Lower(url[..|r.scheme|]) == r.scheme
  {
    var i := IndexOf(url, ':');
    if 0 < i < |url| && IsAsciiLetter(url[0]) && forall k :: 0 <= k < i ==> IsSchemeChar(url[k]) then
      assert url == url[..i] + ":" + url[i + 1..];
      SchemeSplit(Lower(url[..i]), url[i + 1..])
    else
      SchemeSplit("", url)
  }

  /** `_splitparams`: the `;params` of the last path segment, if any. */
  function SplitParams(path: string): (r: (string, string))
    ensures |r.0| <= |path|
  {
    var slash := LastIndexOf(path, '/');
    var from := if slash < 0 then 0 else slash;
    var k := IndexOf(path[from..], ';');
    if k == |path[from..]| then (path, "") else (path[..from + k], path[from + k + 1..])
  }

  /** The netloc after a leading `//`, up to the first `/`, `?` or `#`, and the text after it. */
  datatype NetlocSplit = NetlocSplit(netloc: string, rest: string)

  /** `_splitnetloc(url, 2)` when the text starts with `//`; otherwise there is no netloc. */
  function SplitNetloc(url: string): (r: NetlocSplit)
    ensures Avoids(r.netloc, NetlocEnd)
    ensures StartsWith(url, "//") ==> url == "//" + r.netloc + r.rest && (r.rest == "" || r.rest[0] in NetlocEnd)
    ensures !StartsWith(url, "//") ==> r == NetlocSplit("", url)
  {
    if StartsWith(url, "//") then
      var body := url[2..];
      var i := IndexOfAny(body, NetlocEnd);
      assert url == "//" + body[..i] + body[i..];
      NetlocSplit(body[..i], body[i..])
    else
      NetlocSplit("", url)
  }

  /** Both halves of a concatenation without characters of `cs` have none either. */
  lemma {:induction false} AvoidsConcat(a: string, b: string, cs: set<char>)
    requires Avoids(a + b, cs)
    ensures Avoids(a, cs) && Avoids(b, cs)
  {
    assert forall i :: 0 <= i < |a| ==> a[i] == (a + b)[i];
    assert forall i :: 0 <= i < |b| ==> b[i] == (a + b)[|a| + i];
  }

  /** `urllib.parse.urlparse(s)`: raises `InvalidIPv6` when the netloc has only one kind of square bracket. */
  function Parse(s: string): (r: Result<Url, UrlError>)
    ensures r.Ok? ==> Avoids(r.value.netloc, NetlocEnd + Unsafe)
    ensures r.Ok? ==> ('[' in r.value.netloc <==> ']' in r.value.netloc)
    ensures r.Ok? ==> Avoids(r.value.query, {'#'} + Unsafe) && Avoids(r.value.fragment, Unsafe)
  {
    ParseClean(RemoveAll(LStripC0(s), Unsafe))
  }

  /** `urlparse` once leading controls and spaces are stripped and tab, CR and LF deleted. */
  function ParseClean(url: string): (r: Result<Url, UrlError>)
    requires Avoids(url, Unsafe)
    ensures r.Ok? ==> Avoids(r.value.netloc, NetlocEnd + Unsafe)
    ensures r.Ok? ==> ('[' in r.value.netloc <==> ']' in r.value.netloc)
    ensures r.Ok? ==> Avoids(r.value.query, {'#'} + Unsafe) && Avoids(r.value.fragment, Unsafe)
  {
    var sch := SplitScheme(url);
    SchemeRestSafe(url);
    ParseAfterScheme(sch.scheme, sch.rest)
  }

  /** The text after the scheme of a URL without tab, CR or LF has none either. */
  lemma {:induction false} SchemeRestSafe(url: string)
    requires Avoids(url, Unsafe)
    ensures Avoids(SplitScheme(url).rest, Unsafe)
  {
    var sch := SplitScheme(url);
    if sch.scheme != "" {
      AvoidsConcat(url[..|sch.scheme|] + ":", sch.rest, Unsafe);
    }
  }

  /** The netloc cut and the bracket check, after the scheme. */
  function ParseAfterScheme(scheme: string, rest: string): (r: Result<Url, UrlError>)
    requires Avoids(rest, Unsafe)
    ensures r.Ok? ==> r.value.scheme == scheme
    ensures r.Ok? ==> Avoids(r.value.netloc, NetlocEnd + Unsafe)
    ensures r.Ok? ==> ('[' in r.value.netloc <==> ']' in r.value.netloc)
    ensures r.Ok? ==> Avoids(r.value.query, {'#'} + Unsafe) && Avoids(r.value.fragment, Unsafe)
  {
    var nl := SplitNetloc(rest);
    if ('[' in nl.netloc) != (']' in nl.netloc) then Err(InvalidIPv6(nl.netloc))
    else
      NetlocSafe(rest);
      Ok(SplitTail(scheme, nl.netloc, nl.rest))
  }

  /** The netloc and the text after it, cut from a text without tab, CR or LF, have none either. */
  lemma {:induction false} NetlocSafe(rest: string)
    requires Avoids(rest, Unsafe)
    ensures Avoids(SplitNetloc(rest).netloc, Unsafe) && Avoids(SplitNetloc(rest).rest, Unsafe)
  {
    var nl := SplitNetloc(rest);
    if StartsWith(rest, "//") {
      AvoidsConcat("//" + nl.netloc, nl.rest, Unsafe);
      AvoidsConcat("//", nl.netloc, Unsafe);
    }
  }

  /** The fragment, query and params cuts of the text after the netloc. */
  function SplitTail(scheme: string, netloc: string, tail: string): (u: Url)
    requires Avoids(tail, Unsafe)
    ensures u.scheme == scheme && u.netloc == netloc
    ensures Avoids(u.query, {'#'} + Unsafe) && Avoids(u.fragment, Unsafe)
  {
    var frag := Partition(tail, '#');
    var q := Partition(frag.before, '?');
    var pp := if scheme in UsesParams && ';' in q.before then SplitParams(q.before) else (q.before, "");
    SplitTailSafe(tail, frag, q);
    Url(scheme, netloc, pp.0, pp.1, q.after, frag.after)
  }

  /** The query and fragment cut from a text without tab, CR or LF have none either. */
  lemma {:induction false} SplitTailSafe(tail: string, frag: Parts, q: Parts)
    requires Avoids(tail, Unsafe)
    requires frag == Partition(tail, '#') && q == Partition(frag.before, '?')
    ensures Avoids(q.after, {'#'} + Unsafe) && Avoids(frag.after, Unsafe)
  {
    PartitionSafe(tail, '#', Unsafe);
    assert Avoids(frag.before, {'#'} + Unsafe) by {
      assert '#' !in frag.before;
    }
    PartitionSafe(frag.before, '?', {'#'} + Unsafe);
  }

  /** Both sides of a partition of a text without characters of `cs` have none either. */
  lemma {:induction false} PartitionSafe(s: string, c: char, cs: set<char>)
    requires Avoids(s, cs)
    ensures Avoids(Partition(s, c).before, cs) && Avoids(Partition(s, c).after, cs)
  {
    var p := Partition(s, c);
    if p.found {
      AvoidsConcat(p.before + [c], p.after, cs);
      AvoidsConcat(p.before, [c], cs);
    }
  }

  /** For the `ssh` scheme, which has no params, the tail is cut at `#` and then at `?` only. */
  lemma {:induction false} SplitTailSsh(netloc: string, tail: string)
    requires Avoids(tail, Unsafe)
    ensures var frag := Partition(tail, '#');
            var q := Partition(frag.before, '?');
            SplitTail("ssh", netloc, tail) == Url("ssh", netloc, q.before, "", q.after, frag.after)
  {
    SshHasNoParams();
  }

  /** `[c] + s` when `s` is non-empty, else nothing: how `urlunsplit` writes a query or fragment. */
  function Marked(c: char, s: string): string {
    if s != "" then [c] + s else ""
  }

  /**
   * `urllib.parse.urlunparse(u)`, through `urlunsplit`. The branches for an empty netloc
   * follow the later 3.12 releases; 3.12.0 wrote `//` for any `uses_netloc` scheme whose
   * path does not already start with `//`. A rewritten URL always has a non-empty netloc,
   * so the two agree on every URL the bootstrap writes.
   */
  function Unparse(u: Url): (r: string)
    ensures u.scheme != "" ==> StartsWith(r, u.scheme + ":")
    ensures u.scheme != "" && u.netloc != "" ==> StartsWith(r, u.scheme + "://" + u.netloc)
  {
    var path := if u.params != "" then u.path + ";" + u.params else u.path;
    var url :=
      if u.netloc != "" then "//" + u.netloc + (if path != "" && path[0] != '/' then "/" + path else path)
      else if StartsWith(path, "//") then "//" + path
      else if u.scheme != "" && u.scheme in UsesNetloc && (path == "" || path[0] == '/') then "//" + path
      else path;
    var withScheme := if u.scheme != "" then u.scheme + ":" + url else url;
    withScheme + Marked('?', u.query) + Marked('#', u.fragment)
  }

  /** The host text and the port text of a netloc (`_hostinfo`), before any conversion. */
  datatype HostInfo = HostInfo(host: string, port: string)

  /** Drops any `userinfo@`, then reads a bracketed or plain host and the text after its colon. */
  function SplitHostInfo(netloc: string): (h: HostInfo)
    ensures '@' !in h.host && '@' !in h.port
    ensures var hostinfo := RPartition(netloc, '@').after;
            '[' !in hostinfo ==> ':' !in h.host && hostinfo == h.host + (if ':' in hostinfo then ":" + h.port else "")
  {
    var hostinfo := RPartition(netloc, '@').after;
    if '[' in hostinfo then BracketedHostInfo(hostinfo) else PlainHostInfo(hostinfo)
  }

  /** A bracketed host: the text between `[` and `]`, and the text after the next colon. */
  function BracketedHostInfo(hostinfo: string): (h: HostInfo)
    requires '@' !in hostinfo
    ensures '@' !in h.host && '@' !in h.port
  {
    var br := Partition(hostinfo, '[');
    var inner := Partition(br.after, ']');
    HostInfo(inner.before, Partition(inner.after, ':').after)
  }

  /** A plain host: the text before the first colon, and the text after it. */
  function PlainHostInfo(hostinfo: string): (h: HostInfo)
    requires '@' !in hostinfo
    ensures '@' !in h.host && '@' !in h.port
    ensures ':' !in h.host && hostinfo == h.host + (if ':' in hostinfo then ":" + h.port else "")
  {
    var plain := Partition(hostinfo, ':');
    PartitionRejoin(hostinfo, ':');
    PartitionKeepsAbsent(hostinfo, ':', '@');
    HostInfo(plain.before, plain.after)
  }

  /** Text cut at a separator it holds is the part before, the separator, and the part after. */
  lemma {:induction false} PartitionRejoin(s: string, c: char)
    ensures Partition(s, c).found ==> s == Partition(s, c).before + ([c] + Partition(s, c).after)
  {
    var p := Partition(s, c);
    if p.found {
      assert s == p.before + [c] + p.after;
    }
  }

  /** A character absent from a text is absent from both parts of any cut of it. */
  lemma {:induction false} PartitionKeepsAbsent(s: string, c: char, d: char)
    requires d !in s
    ensures d !in Partition(s, c).before && d !in Partition(s, c).after
  {
    var p := Partition(s, c);
    if p.found {
      assert s == p.before + [c] + p.after;
    }
  }

  /** The `hostname` property: `None` for an empty host; otherwise lower-cased up to any `%zone`. */
  function Hostname(u: Url): (r: Option<string>)
    ensures r.None? <==> SplitHostInfo(u.netloc).host == ""
    ensures r.Some? ==> |r.value| == |SplitHostInfo(u.netloc).host|
    ensures r.Some? && '%' !in SplitHostInfo(u.netloc).host ==> r.value == Lower(SplitHostInfo(u.netloc).host)
  {
    var host := SplitHostInfo(u.netloc).host;
    if host == "" then None else Some(LowerHost(host))
  }

  /** A host lower-cased up to any `%zone`, whose text is kept as written. */
  function LowerHost(host: string): (r: string)
    ensures |r| == |host|
    ensures '%' !in host ==> r == Lower(host)
  {
    var zone := Partition(host, '%');
    if zone.found then Lower(zone.before) + "%" + zone.after else Lower(host)
  }

  /** The `port` property: absent, a number in 0..65535, or a `ValueError`. */
  function Port(u: Url): (r: Result<Option<nat>, UrlError>)
    ensures r.Ok? && r.value.Some? ==> r.value.value <= 65535
    ensures r.Ok? && r.value.None? <==> SplitHostInfo(u.netloc).port == ""
    ensures var p := SplitHostInfo(u.netloc).port;
            r.Ok? && r.value.Some? ==> IsDecimal(p) && r.value.value == DecimalValue(p)
    ensures var p := SplitHostInfo(u.netloc).port;
            r.Err? <==> p != "" && (!IsDecimal(p) || DecimalValue(p) > 65535)
  {
    var p := SplitHostInfo(u.netloc).port;
    if p == "" then Ok(None)
    else if !IsDecimal(p) then Err(PortNotInteger(p))
    else if DecimalValue(p) <= 65535 then Ok(Some(DecimalValue(p)))
    else Err(PortOutOfRange(DecimalValue(p)))
  }

  /** The shape of every parsed `ssh://` URL that names a host: the records `Unparse` writes faithfully. */
  predicate WellFormedSsh(u: Url) {
    && u.scheme == "ssh"
    && u.params == ""
    && u.netloc != ""
    && Avoids(u.netloc, NetlocEnd + Unsafe)
    && ('[' in u.netloc <==> ']' in u.netloc)
    && (u.path == "" || u.path[0] == '/')
    && Avoids(u.path, {'?', '#'} + Unsafe)
    && Avoids(u.query, {'#'} + Unsafe)
    && Avoids(u.fragment, Unsafe)
  }

  /** For a well-formed `ssh://` record, `urlunparse` writes the fields with their separators. */
  lemma {:induction false} UnparseWellFormed(u: Url)
    requires WellFormedSsh(u)
    ensures Unparse(u) == "ssh:" + ("//" + u.netloc + (u.path + Marked('?', u.query) + Marked('#', u.fragment)))
  {
    UnparseFields(u);
  }

  /** The case split of `urlunsplit` for an `ssh` record with a netloc, no params and an absolute or empty path. */
  lemma {:induction false} UnparseFields(u: Url)
    requires u.scheme == "ssh" && u.params == "" && u.netloc != ""
    requires u.path == "" || u.path[0] == '/'
    ensures Unparse(u) == "ssh:" + ("//" + u.netloc + (u.path + Marked('?', u.query) + Marked('#', u.fragment)))
  {
    var q := Marked('?', u.query);
    var f := Marked('#', u.fragment);
    var url := "//" + u.netloc + u.path;
    assert Unparse(u) == "ssh" + ":" + url + q + f;
    assert "ssh" + ":" == "ssh:";
    Regroup("ssh:", "//" + u.netloc, u.path, q, f);
  }

  /** Regrouping the pieces of a written URL. */
  lemma {:induction false} Regroup(a: string, b: string, p: string, q: string, f: string)
    ensures a + (b + p) + q + f == a + (b + (p + q + f))
  {
  }

  /** Text that starts with `ssh://` still does after more is appended. */
  lemma {:induction false} SshPrefixAppend(s: string, t: string)
    requires StartsWith(s, "ssh://")
    ensures StartsWith(s + t, "ssh://")
  {
    assert (s + t)[..6] == s[..6];
  }

  /** An `ssh` record with a netloc is written starting with `ssh://`. */
  lemma {:induction false} UnparseSshPrefix(u: Url)
    requires u.scheme == "ssh" && u.netloc != ""
    ensures StartsWith(Unparse(u), "ssh://")
  {
    var path := if u.params != "" then u.path + ";" + u.params else u.path;
    var tail := u.netloc + (if path != "" && path[0] != '/' then "/" + path else path);
    var q := Marked('?', u.query);
    var f := Marked('#', u.fragment);
    assert Unparse(u) == "ssh" + ":" + ("//" + tail) + q + f;
    SshWrittenPrefix(tail, q, f);
  }

  /** The text `ssh:` `//` followed by anything starts with `ssh://`. */
  lemma {:induction false} SshWrittenPrefix(tail: string, q: string, f: string)
    ensures StartsWith("ssh" + ":" + ("//" + tail) + q + f, "ssh://")
  {
    assert "ssh" + ":" + ("//" + tail) + q + f == "ssh://" + (tail + q + f);
    SshPrefixAppend("ssh://", tail + q + f);
  }

  /** A string without characters of `cs` extended by another such string has none either. */
  lemma {:induction false} AvoidsJoin(a: string, b: string, cs: set<char>)
    requires Avoids(a, cs) && Avoids(b, cs)
    ensures Avoids(a + b, cs)
  {
    assert forall i :: 0 <= i < |a + b| ==> (a + b)[i] == if i < |a| then a[i] else b[i - |a|];
  }

  /** `ssh:` is read as the scheme. */
  lemma {:induction false} SplitSchemeSsh(rest: string)
    ensures SplitScheme("ssh:" + rest) == SchemeSplit("ssh", rest)
  {
    var url := "ssh:" + rest;
    SshColon(rest);
    assert url[..3] == "ssh";
    assert Lower("ssh") == "ssh";
    assert url[4..] == rest;
  }

  /** The first colon of `ssh:` followed by anything is the fourth character. */
  lemma {:induction false} SshColon(rest: string)
    ensures IndexOf("ssh:" + rest, ':') == 3
    ensures forall k :: 0 <= k < 3 ==> IsSchemeChar(("ssh:" + rest)[k])
  {
    var url := "ssh:" + rest;
    assert url[0] == 's' && url[1] == 's' && url[2] == 'h' && url[3] == ':';
  }

  /** A netloc without delimiters, followed by text that starts with one, is cut exactly there. */
  lemma {:induction false} SplitNetlocAt(netloc: string, tail: string)
    requires Avoids(netloc, NetlocEnd)
    requires tail == "" || tail[0] in NetlocEnd
    ensures SplitNetloc("//" + netloc + tail) == NetlocSplit(netloc, tail)
  {
    var url := "//" + netloc + tail;
    assert StartsWith(url, "//");
    var body := url[2..];
    assert body == netloc + tail;
    assert forall k :: 0 <= k < |netloc| ==> body[k] == netloc[k] && body[k] !in NetlocEnd;
    if tail != "" {
      assert body[|netloc|] == tail[0];
    }
    assert IndexOfAny(body, NetlocEnd) == |netloc|;
    assert body[..|netloc|] == netloc;
    assert body[|netloc|..] == tail;
  }

  /** Parsing what `urlunparse` wrote for a well-formed `ssh://` record gives the record back. */
  lemma {:induction false} ParseUnparse(u: Url)
    requires WellFormedSsh(u)
    ensures Parse(Unparse(u)) == Ok(u)
  {
    UnparseWellFormed(u);
    assert Avoids(u.netloc, NetlocEnd) by {
      assert forall i :: 0 <= i < |u.netloc| ==> u.netloc[i] !in NetlocEnd + Unsafe;
    }
    assert Avoids(u.netloc, Unsafe) by {
      assert forall i :: 0 <= i < |u.netloc| ==> u.netloc[i] !in NetlocEnd + Unsafe;
    }
    ParseSshText(u.netloc, u.path, u.query, u.fragment);
  }

  /** The text after the netloc that `urlunparse` writes: path, then the marked query and fragment. */
  function SshTail(path: string, query: string, fragment: string): string {
    path + Marked('?', query) + Marked('#', fragment)
  }

  /** Parsing `ssh://` followed by a clean netloc and tail cuts exactly at the written separators. */
  lemma {:induction false} ParseSshText(netloc: string, path: string, query: string, fragment: string)
    requires Avoids(netloc, NetlocEnd) && Avoids(netloc, Unsafe) && ('[' in netloc <==> ']' in netloc)
    requires path == "" || path[0] == '/'
    requires Avoids(path, {'?', '#'} + Unsafe)
    requires Avoids(query, {'#'} + Unsafe)
    requires Avoids(fragment, Unsafe)
    ensures Parse("ssh:" + ("//" + netloc + SshTail(path, query, fragment)))
            == Ok(Url("ssh", netloc, path, "", query, fragment))
  {
    var tail := SshTail(path, query, fragment);
    SshTextClean(netloc, path, query, fragment);
    SshTailStart(path, query, fragment);
    ParseSshAt("ssh:" + ("//" + netloc + tail), netloc, tail);
    SplitSshTail(netloc, path, query, fragment);
  }

  /** A text that cleans to `ssh://`, a netloc and a tail starting with a delimiter parses to the tail's cuts. */
  lemma {:induction false} ParseSshAt(s: string, netloc: string, tail: string)
    requires Avoids(netloc, NetlocEnd) && ('[' in netloc <==> ']' in netloc)
    requires tail == "" || tail[0] in NetlocEnd
    requires RemoveAll(LStripC0(s), Unsafe) == "ssh:" + ("//" + netloc + tail)
    ensures Avoids(tail, Unsafe)
    ensures Parse(s) == Ok(SplitTail("ssh", netloc, tail))
  {
    ParseSshScheme(s, "//" + netloc + tail);
    ParseSshNetloc(netloc, tail);
  }

  /** Once cleaning leaves `ssh:` and a rest, parsing is the netloc cut of that rest. */
  lemma {:induction false} ParseSshScheme(s: string, rest: string)
    requires RemoveAll(LStripC0(s), Unsafe) == "ssh:" + rest
    ensures Avoids(rest, Unsafe)
    ensures Parse(s) == ParseAfterScheme("ssh", rest)
  {
    SplitSchemeSsh(rest);
    SchemeRestSafe("ssh:" + rest);
  }

  /** A clean netloc followed by a tail that starts with a delimiter is cut at the tail. */
  lemma {:induction false} ParseSshNetloc(netloc: string, tail: string)
    requires Avoids(netloc, NetlocEnd) && ('[' in netloc <==> ']' in netloc)
    requires tail == "" || tail[0] in NetlocEnd
    requires Avoids("//" + netloc + tail, Unsafe)
    ensures Avoids(tail, Unsafe)
    ensures ParseAfterScheme("ssh", "//" + netloc + tail) == Ok(SplitTail("ssh", netloc, tail))
  {
    SplitNetlocAt(netloc, tail);
    NetlocSafe("//" + netloc + tail);
  }

  /** The tail `urlunparse` writes is cut back into its path, query and fragment. */
  lemma {:induction false} SplitSshTail(netloc: string, path: string, query: string, fragment: string)
    requires Avoids(path, {'?', '#'} + Unsafe)
    requires Avoids(query, {'#'} + Unsafe)
    requires Avoids(SshTail(path, query, fragment), Unsafe)
    ensures SplitTail("ssh", netloc, SshTail(path, query, fragment)) == Url("ssh", netloc, path, "", query, fragment)
  {
    SplitTailSsh(netloc, SshTail(path, query, fragment));
    ParseTail(path, query, fragment);
  }

  /**
   * For an `ssh://` text, `urlparse` raises exactly when the netloc it cuts, after deleting tab,
   * CR and LF, holds one kind of square bracket, and the error names that netloc.
   */
  lemma {:induction false} ParseSshFailsOnBrackets(s: string)
    requires StartsWith(s, "ssh://")
    ensures var n := SplitNetloc("//" + RemoveAll(s[6..], Unsafe)).netloc;
            && (Parse(s).Err? <==> ('[' in n) != (']' in n))
            && (Parse(s).Err? ==> Parse(s).error == InvalidIPv6(n))
  {
    CleanSshPrefix(s);
    ParseSshScheme(s, "//" + RemoveAll(s[6..], Unsafe));
  }

  /** The whole text has no tab, CR or LF, so `urlparse` deletes and strips nothing. */
  lemma {:induction false} SshTextClean(netloc: string, path: string, query: string, fragment: string)
    requires Avoids(netloc, Unsafe)
    requires Avoids(path, {'?', '#'} + Unsafe)
    requires Avoids(query, {'#'} + Unsafe)
    requires Avoids(fragment, Unsafe)
    ensures var s := "ssh:" + ("//" + netloc + SshTail(path, query, fragment));
            RemoveAll(LStripC0(s), Unsafe) == s && Avoids(s, Unsafe)
    ensures Avoids(SshTail(path, query, fragment), Unsafe)
  {
    var q := Marked('?', query);
    var f := Marked('#', fragment);
    var tail := SshTail(path, query, fragment);
    var rest := "//" + netloc + tail;
    var s := "ssh:" + rest;
    assert Avoids(path, Unsafe) by { AvoidsSubset(path, {'?', '#'} + Unsafe, Unsafe); }
    assert Avoids(q, Unsafe) by {
      AvoidsSubset(query, {'#'} + Unsafe, Unsafe);
      if query != "" {
        AvoidsJoin(['?'], query, Unsafe);
      }
    }
    assert Avoids(f, Unsafe) by {
      if fragment != "" {
        AvoidsJoin(['#'], fragment, Unsafe);
      }
    }
    AvoidsJoin(path, q, Unsafe);
    AvoidsJoin(path + q, f, Unsafe);
    AvoidsJoin("//", netloc, Unsafe);
    AvoidsJoin("//" + netloc, tail, Unsafe);
    AvoidsJoin("ssh:", rest, Unsafe);
    assert s[0] == 's';
    assert LStripC0(s) == s;
  }

  /** A subset of the excluded characters is excluded too. */
  lemma {:induction false} AvoidsSubset(s: string, cs: set<char>, ds: set<char>)
    requires Avoids(s, cs) && ds <= cs
    ensures Avoids(s, ds)
  {
  }

  /** The tail is empty or starts with `/`, `?` or `#`. */
  lemma {:induction false} SshTailStart(path: string, query: string, fragment: string)
    requires path == "" || path[0] == '/'
    ensures var tail := SshTail(path, query, fragment);
            tail == "" || tail[0] in NetlocEnd
  {
    var q := Marked('?', query);
    var f := Marked('#', fragment);
    var tail := path + q + f;
    if path != "" {
      assert tail[0] == path[0];
    } else if q != "" {
      assert tail[0] == q[0];
    } else if f != "" {
      assert tail == f;
    }
  }

  /** `ssh` is not one of the schemes with `;params`. */
  lemma {:induction false} SshHasNoParams()
    ensures "ssh" !in UsesParams
  {
  }

  /** Partitioning `head` followed by a marked part at the marker recovers both. */
  lemma {:induction false} PartitionMarked(head: string, part: string, c: char)
    requires Avoids(head, {c})
    ensures Partition(head + Marked(c, part), c) == Parts(head, part != "", part)
  {
    if part != "" {
      assert Marked(c, part) == [c] + part;
      assert head + Marked(c, part) == head + [c] + part;
      PartitionAt(head, part, c);
    } else {
      assert head + Marked(c, part) == head;
      PartitionAbsent(head, c);
    }
  }

  /** Splitting the text after the netloc recovers path, query and fragment. */
  lemma {:induction false} ParseTail(path: string, query: string, fragment: string)
    requires Avoids(path, {'?', '#'} + Unsafe)
    requires Avoids(query, {'#'} + Unsafe)
    ensures Partition(path + Marked('?', query) + Marked('#', fragment), '#')
            == Parts(path + Marked('?', query), fragment != "", fragment)
    ensures Partition(path + Marked('?', query), '?') == Parts(path, query != "", query)
  {
    var q := Marked('?', query);
    assert Avoids(path + q, {'#'}) by {
      assert forall i :: 0 <= i < |path| ==> (path + q)[i] == path[i];
      assert forall i :: |path| <= i < |path + q| ==> (path + q)[i] == q[i - |path|];
    }
    PartitionMarked(path + q, fragment, '#');
    PartitionMarked(path, query, '?');
  }

  /** Partitioning a string without `c` leaves it whole. */
  lemma {:induction false} PartitionAbsent(s: string, c: char)
    requires Avoids(s, {c})
    ensures Partition(s, c) == Parts(s, false, "")
  {
    assert c !in s;
  }

  /** Partitioning `a + [c] + b` where `a` has no `c` splits exactly at the added `c`. */
  lemma {:induction false} PartitionAt(a: string, b: string, c: char)
    requires c !in a
    ensures Partition(a + [c] + b, c) == Parts(a, true, b)
  {
    var s := a + [c] + b;
    assert IndexOf(s, c) == |a| by {
      assert forall k :: 0 <= k < |a| ==> s[k] == a[k];
      assert s[|a|] == c;
    }
    assert s[..|a|] == a;
    assert s[|a| + 1..] == b;
  }

  /** A prefix of a string without characters of `cs` has none either. */
  lemma {:induction false} AvoidsPrefix(a: string, s: string, cs: set<char>)
    requires a <= s && Avoids(s, cs)
    ensures Avoids(a, cs)
  {
    assert forall i :: 0 <= i < |a| ==> a[i] == s[i];
  }

  /** The scheme and the `//` that follows it contain no character `urlparse` deletes. */
  lemma {:induction false} SshMarkersSafe()
    ensures RemoveAll("ssh:", Unsafe) == "ssh:" && RemoveAll("//", Unsafe) == "//"
  {
    assert Avoids("ssh:", Unsafe);
    assert Avoids("//", Unsafe);
  }

  /** `urlparse` keeps the `ssh:` scheme and the `//` before the netloc of an `ssh://` URL. */
  lemma {:induction false} CleanSshPrefix(s: string)
    requires StartsWith(s, "ssh://")
    ensures RemoveAll(LStripC0(s), Unsafe) == "ssh:" + ("//" + RemoveAll(s[6..], Unsafe))
  {
    var t := s[6..];
    assert s[0] == 's';
    assert s == "ssh:" + ("//" + t);
    calc {
      RemoveAll(LStripC0(s), Unsafe);
      RemoveAll(s, Unsafe);
      { RemoveAllAppend("ssh:", "//" + t, Unsafe); }
      RemoveAll("ssh:", Unsafe) + RemoveAll("//" + t, Unsafe);
      { RemoveAllAppend("//", t, Unsafe); }
      RemoveAll("ssh:", Unsafe) + (RemoveAll("//", Unsafe) + RemoveAll(t, Unsafe));
      { SshMarkersSafe(); }
      "ssh:" + ("//" + RemoveAll(t, Unsafe));
    }
  }

  /** What `urlparse` makes of an `ssh://` URL, in terms of the cuts it performs. */
  lemma {:induction false} ParseSshCuts(s: string)
    requires StartsWith(s, "ssh://")
    ensures var nl := SplitNetloc("//" + RemoveAll(s[6..], Unsafe));
            var frag := Partition(nl.rest, '#');
            var q := Partition(frag.before, '?');
            && StartsWith("//" + RemoveAll(s[6..], Unsafe), "//")
            && Avoids(nl.rest, Unsafe)
            && (Parse(s).Ok? ==> Parse(s).value == Url("ssh", nl.netloc, q.before, "", q.after, frag.after))
  {
    NetlocRestSafe(RemoveAll(s[6..], Unsafe));
    if Parse(s).Ok? {
      ParseSshValue(s);
    }
  }

  /** What follows the netloc of `//` and a text without tab, CR or LF has none either. */
  lemma {:induction false} NetlocRestSafe(body: string)
    requires Avoids(body, Unsafe)
    ensures StartsWith("//" + body, "//")
    ensures Avoids(SplitNetloc("//" + body).rest, Unsafe)
  {
    var rest := "//" + body;
    var nl := SplitNetloc(rest);
    assert StartsWith(rest, "//");
    assert rest == "//" + nl.netloc + nl.rest;
    assert body == nl.netloc + nl.rest;
    AvoidsConcat(nl.netloc, nl.rest, Unsafe);
  }

  /** The record `urlparse` returns for an `ssh://` URL it accepts. */
  lemma {:induction false} ParseSshValue(s: string)
    requires StartsWith(s, "ssh://") && Parse(s).Ok?
    ensures var nl := SplitNetloc("//" + RemoveAll(s[6..], Unsafe));
            var frag := Partition(nl.rest, '#');
            var q := Partition(frag.before, '?');
            Parse(s).value == Url("ssh", nl.netloc, q.before, "", q.after, frag.after)
  {
    var body := RemoveAll(s[6..], Unsafe);
    var rest := "//" + body;
    CleanSshPrefix(s);
    ParseSshScheme(s, rest);
    var nl := SplitNetloc(rest);
    NetlocRestSafe(body);
    assert Parse(s) == Ok(SplitTail("ssh", nl.netloc, nl.rest));
    SplitTailSsh(nl.netloc, nl.rest);
  }

  /** The path `urlparse` cuts after a netloc is empty or starts with `/`, and has no `?` or `#`. */
  lemma {:induction false} PathShape(rest: string)
    requires rest == "" || rest[0] in NetlocEnd
    requires Avoids(rest, Unsafe)
    ensures var path := Partition(Partition(rest, '#').before, '?').before;
            (path == "" || path[0] == '/') && Avoids(path, {'?', '#'} + Unsafe)
  {
    var frag := Partition(rest, '#');
    var q := Partition(frag.before, '?');
    var path := q.before;
    PartitionSafe(rest, '#', Unsafe);
    AvoidsAdd(frag.before, '#', Unsafe);
    PartitionSafe(frag.before, '?', {'#'} + Unsafe);
    AvoidsAdd(path, '?', {'#'} + Unsafe);
    assert {'?'} + ({'#'} + Unsafe) == {'?', '#'} + Unsafe;
    if path != "" {
      PartitionFirst(rest, '#');
      PartitionFirst(frag.before, '?');
    }
  }

  /** A text without `c` and without characters of `cs` avoids both together. */
  lemma {:induction false} AvoidsAdd(s: string, c: char, cs: set<char>)
    requires c !in s && Avoids(s, cs)
    ensures Avoids(s, {c} + cs)
  {
    assert forall i :: 0 <= i < |s| ==> s[i] != c;
  }

  /** A non-empty part before a separator starts where the text starts. */
  lemma {:induction false} PartitionFirst(s: string, c: char)
    requires Partition(s, c).before != ""
    ensures s != "" && Partition(s, c).before[0] == s[0]
  {
  }

  /**
   * A netloc that a parse gives back unchanged: not empty, holding nothing that ends a netloc
   * or that `urlsplit` strips, and a `[` exactly when a `]`.
   */
  predicate CleanNetloc(netloc: string) {
    netloc != "" && Avoids(netloc, NetlocEnd + Unsafe) && ('[' in netloc <==> ']' in netloc)
  }

  /**
   * Replacing the netloc of a parsed `ssh://` URL with a clean non-empty one gives a
   * well-formed record.
   */
  lemma {:induction false} ParseSshShape(s: string, netloc: string)
    requires StartsWith(s, "ssh://") && Parse(s).Ok?
    requires CleanNetloc(netloc)
    ensures WellFormedSsh(Parse(s).value.(netloc := netloc))
  {
    ParseSshCuts(s);
    var nl := SplitNetloc("//" + RemoveAll(s[6..], Unsafe));
    PathShape(nl.rest);
  }
}
